=== FILE: README.md ===
# Quick Login As — a Dafny model of the extension's core

The browser extension lets a Salesforce administrator open a "Login As" session as another
user in an incognito window, and inspect and mass-edit the fields of the record on the current
page. With the browser, cookie, tab and network calls turned into plain inputs, what is left is
string and sequence logic. This project models that logic and proves its properties:

- **Host and session resolution** (`background.js`), in `HostClassifier` and `SessionResolver`:
  - the `.mcas.ms` gateway alias and the Salesforce-domain test;
  - the toolbar-enable predicate;
  - org-id extraction from a `sid` cookie, and the test that decides which cookie qualifies;
  - the six-way cookie fan-in of the `getSfHost` handler, as a fold over the lookup answers
    in the order they arrive;
  - the `getSession` fallback chain.
- **The record-URL extractor** (`getRecordDetailsFromUrl`), in `RecordUrl`: the regular
  expression `/lightning/r/<object>/<id>/view`, matched leftmost, written out as predicates.
- **The popup** (`popup.js`), in `Frontdoor` and `UsersPage`:
  - the `frontdoor.jsp` redirect builder, with `encodeURIComponent` in `UriEncoding`;
  - the Login-As href rewrite;
  - making relative links absolute;
  - the users-page address and its paging offset;
  - the column-hiding and row-visibility rules.
- **The record inspector** (`inspector/inspector.js`), in `Inspector`:
  - the field grid built from a record and its describe metadata;
  - the inputs of the edit mode;
  - the diff that becomes the partial-update payload;
  - the snapshot kept after a save;
  - the search box.

  `Json` models `JSON.stringify` over null, booleans, integers, strings and objects. It comes
  with a parser and the round trip `Parse(Encode(v)) == Some(v)`, so comparing JSON texts is
  comparing values. `Sorting` models the default `Array.prototype.sort` order, which compares
  UTF-16 code units.
- **The backup copies** (`bkp/debug.js`, `bkp/exemplo-simples.js`). Their `buildIncognitoLoginUrl`
  functions have the same text as the popup's and return the same value on every input. All
  three are modelled by the one function `Frontdoor.BuildLoginUrl`. The debugging flow and the
  complete example that use the builder are `Frontdoor.DebugExtension` and
  `Frontdoor.ExampleComplete`.

Shared pieces:

- `Strings`: prefix, suffix and substring predicates, `split`-style helpers, and ASCII lower case.
- `Decimal`: decimal integer text and its round trip.
- `Wrappers`: `Option`.

Where the code behaves differently from what a reader of its comments would expect, the model
follows the code:

- `getSfHost` replies with the first qualifying cookie in the order the six lookups answer,
  not in the order the domains are listed. `SessionResolver.ArrivalOrderCanOverridePriority`
  exhibits the difference.
- The session id is placed in the frontdoor address without encoding.
- A field missing from the describe metadata gets the type `N/A`.
- A text input cleared to `''` is sent as `null`. An untouched text input on a numeric field
  is sent as a string.

## Model

| member | source | states |
|---|---|---|
| HostClassifier.SalesforceDomainIsForceCom | background.js:147-155 | The three-way domain test is equivalent to "contains `force.com`": the `cloudforce.com` disjunct and even the `salesforce.com` one are subsumed. |
| HostClassifier.UpdateActionStatus | background.js:4-26 | The action is enabled, with the popup set, exactly when the URL contains one of the three platform patterns. An enabled page always passes the domain test. |
| HostClassifier.ToolbarFacts | background.js:4-12 | The toolbar predicate holds iff one of `.salesforce.com/`, `.visual.force.com/`, `.lightning.force.com/` occurs. Every enabled URL contains `force.com`. |
| SessionResolver.OrgId | background.js:167 | The org id is a prefix of the cookie value and holds no `!`. When a `!` exists, the value is org id + `!` + the rest; otherwise the org id is the whole value. |
| SessionResolver.FirstQualifying | background.js:193-196 | `find` returns a qualifying cookie (value starts with org id + `!`, domain not `help.salesforce.com`) with no qualifying cookie before it. It returns nothing iff no cookie qualifies. |
| SessionResolver.FirstQualifyingConcat | background.js:183-200 | Searching two answers one after the other equals searching their concatenation: the answer that arrives first wins. |
| SessionResolver.StaleLookupsIgnored | background.js:192-205 | Once a reply has been sent, later callbacks change nothing and send nothing. |
| SessionResolver.RunUnfound | background.js:190-204 | While nothing qualifies, the fold only counts callbacks, and it replies with the current host exactly when the sixth arrives. |
| SessionResolver.FanInOutcome | background.js:179-207 | For any prefix of the arrivals, the replies are the domain of the first qualifying cookie in arrival order; else the current host once all six have answered; else none yet. |
| SessionResolver.GetSfHost | background.js:137-215 | The handler replies at most once, and exactly once when all six lookups answer. A gateway host is returned as is and a non-Salesforce host gets `null`. A page without `sid` gets its own host. With a `sid`, the reply is the domain of the first qualifying cookie in arrival order; if none has come, the page's own host is sent once all six lookups have answered, and nothing before that. Any reply other than the host is the domain of a cookie one of the lookups returned. |
| SessionResolver.FoundCookieComesFromALookup | background.js:193-200 | The cookie the fan-in finds qualifies and is one of the cookies some lookup returned. |
| SessionResolver.InOrderArrivalIsPriorityChoice | background.js:169-205 | When callbacks arrive in the order the lookups were issued, the reply is the priority choice over the listed domains. |
| SessionResolver.ArrivalOrderCanOverridePriority | background.js:180-200 | A concrete arrival where a `force.com` answer arriving first wins over a qualifying `salesforce.com` cookie of higher priority. |
| SessionResolver.GetSession | background.js:218-260 | The primary cookie, if present, gives (value, cookie domain). Else a tab URL plus a fallback cookie gives (fallback value, tab hostname). The reply is `null` exactly when neither applies. |
| RecordUrl.MatchAtSound | background.js:352 | What the scanner reads at a position is a match of the pattern there. |
| RecordUrl.MatchAtComplete | background.js:352 | Every match of the pattern at a position is found by the scanner: the greedy character classes cannot miss one. |
| RecordUrl.MatchIsUnique | background.js:352 | At a given position the pattern matches at most one (object, id) pair. |
| RecordUrl.FirstMatch | background.js:352 | The scan from a position returns a match with no match between the start and it, or nothing when no match starts at or after the position. |
| RecordUrl.RecordDetails | background.js:349-361 | The result is the leftmost match's object name (`[A-Za-z0-9_]+`) and id (15 to 18 alphanumerics), or `null` exactly when the URL has no match. |
| RecordUrl.AccountPageExample | background.js:350 | The example address in the comment at background.js:350 yields the `Account` object and its id. |
| UriEncoding.Encode | popup.js:62 | `encodeURIComponent` output consists only of `%` escapes and unreserved characters. |
| UriEncoding.EncodedHasNoDelimiters | popup.js:62 | The encoded text holds no `&`, `?`, `=`, `/` or `#`. |
| UriEncoding.DecodeEncode | popup.js:62 | Percent-decoding the encoding gives back the original text exactly. |
| UriEncoding.EncodeInjective | popup.js:62 | Two texts with the same encoding are equal. |
| Frontdoor.BuildLoginUrl | popup.js:55-64 | There is no address exactly when the session id is falsy (missing or empty). Otherwise the address is exactly domain + `/secur/frontdoor.jsp?sid=` + the id verbatim + `&retURL=` + the encoded Login-As address (the prefix, the suffix and the length together), and its last parameter `retURL` decodes to the Login-As address. |
| Frontdoor.RetUrlHasNoDelimiters | popup.js:62-63 | The `retURL` value of a built address is the encoded Login-As address and holds no query delimiter. |
| Frontdoor.BuildLoginUrlInjective | popup.js:62-63 | For a given session and domain, distinct Login-As addresses give distinct frontdoor addresses. |
| Frontdoor.RemoveFirstParam | popup.js:120 | The first-match `replace` of a return parameter: unchanged when no `&name=` or `?name=` occurs. Otherwise exactly the first occurrence, up to the next `&` or the end, is cut out. |
| Frontdoor.RewriteLoginHref | popup.js:119-122 | The rewritten href keeps the stripped href as its prefix. It then adds `&` when a `?` is already there and `?` otherwise, and ends with the override parameters. Its last parameter `targetURL` decodes to the tab address. |
| Frontdoor.RewriteStartsQuery | popup.js:121-122 | Without a query in the stripped href, the `?` added starts the query and everything after it is the override parameters. |
| Frontdoor.LoginAsUrl | popup.js:124 | The Login-As address is the popup's domain followed exactly by the rewritten href, and it carries the tab address back as `targetURL`. |
| Frontdoor.ServletSuUrl | bkp/debug.js:69 | The test Login-As address is a `servlet.su` address on the given origin naming the target user in `suorgadminid`. |
| Frontdoor.DebugExtension | bkp/debug.js:10-70 | The flow stops exactly when the tab has no URL, and exactly when the host fails the inline domain test. It builds only with a host and a session. The frontdoor is on `https://` + the session host, and its `retURL` decodes to the test address on the resolved host. |
| Frontdoor.ExampleComplete | bkp/exemplo-simples.js:82-106 | The example opens an address exactly when the session cookie is present. Its `retURL` decodes to a `servlet.su` address on the example domain that contains `suorgadminid=` + the target user. |
| UsersPage.UsersQuery | popup.js:183-184 | The query begins with `fcf=` exactly when a view id is given. |
| UsersPage.UsersPageUrl | popup.js:184 | The users-page address is the domain, the fixed `/005?isUserEntityOverride=1&` path, then the query. |
| UsersPage.UsersQueryReadsBack | popup.js:183-184 | Reading the query back gives the view id, the page size (`rowsperpage`) and the offset (`lsr`) it was built with. |
| UsersPage.NavigateUrl | popup.js:256-261 | A navigation link fetches the user list page of the popup's domain. Its query reads back as the selected view (when it has no `&`), the same page size, and the offset `NavOffset` gives. |
| UsersPage.NavOffset | popup.js:258-261 | A link whose lower-cased text contains `next` moves the offset forward by the page size; any other link moves it back by the page size. |
| UsersPage.NextThenPrevious | popup.js:258-261 | Next then Previous returns to the same offset. |
| UsersPage.PreviousFromFirstPageIsNegative | popup.js:261 | Previous from the first page gives a negative offset: nothing clamps at 0. |
| UsersPage.HideColumns | popup.js:271-281 | Every cell is hidden exactly when its index is greater than 3. |
| UsersPage.ToggleColumns | popup.js:289-300 | With a hidden cell present, the toggle keeps every row and cell, shows them all, and says "Some Columns"; otherwise it hides columns again and says "All Columns". |
| UsersPage.ToggleTwiceRestores | popup.js:289-300 | Toggling twice from the initial layout restores it. |
| UsersPage.LoginOnlyVisibility | popup.js:324-333 | With the login-only box checked, a row is hidden exactly when it has no login cell. Unchecked, every row is shown. |
| UsersPage.TextFilterVisibility | popup.js:338-357 | With a non-empty filter, a row shows exactly when its lower-cased text contains the lower-cased filter. An empty filter reapplies the login-only rule. |
| UsersPage.EmptyFilterShowsLoginRows | popup.js:353-356 | With an empty filter and the login-only box checked, exactly the rows with a login cell show. |
| UsersPage.RewriteLoginLink | popup.js:111-130 | Only action-column links whose text contains `Login` change. A changed link without an href is the failure case. Only the href changes. It becomes exactly `BuildLoginUrl` of the Login-As address, or `null` without a session. With a session it is the frontdoor address whose `retURL` reads back as the Login-As address. |
| UsersPage.Absolutise | popup.js:169-175 | A non-login link with an href starting with `/` gets the domain prefixed; other hrefs are kept. Every such link opens in a new tab. |
| UsersPage.AbsolutiseIdempotent | popup.js:169-175 | Under an `https://` domain, absolutising twice is absolutising once. |
| UsersPage.KeptLinks | popup.js:111-116 | The positions, in order, of exactly the links that stay in the table: every link except the other action-column links of an element that holds a Login link, which clearing that element removes. Login links and links outside the action column always stay. |
| UsersPage.ProcessLinks | popup.js:109-176 | Processing fails exactly when a Login link has no href or two Login links share an element. Otherwise the result holds the kept links in order: each Login link becomes its rewritten link, absolutised, and every other kept link is just absolutised. |
| UsersPage.SiblingOfLoginLinkDropped | popup.js:113-116 | An action-column link next to a Login link in the same element is dropped, so only the Login link is left. |
| UsersPage.LoginLinkKeepsFrontdoorHref | popup.js:169-175 | The frontdoor href of a rewritten Login link survives the absolutising pass unchanged, at its position among the kept links. |
| Json.ParseEncode | inspector/inspector.js:118 | `JSON.parse(JSON.stringify(v))` gives back `v`. |
| Json.EncodeInjective | inspector/inspector.js:193 | Two values have the same JSON text iff they are equal. |
| Sorting.BelowIsCodeUnitOrder | inspector/inspector.js:108 | The order the keys are sorted by is lexicographic order on UTF-16 code units. |
| Sorting.BelowTransitive | inspector/inspector.js:108 | The sort order is transitive. |
| Sorting.BelowTotal | inspector/inspector.js:108 | Any two distinct keys are ordered one way or the other. |
| Sorting.Sort | inspector/inspector.js:108 | The sorted keys are a permutation of the keys, in strictly ascending order when the keys are distinct. |
| Inspector.MetaFor | inspector/inspector.js:113 | A field without describe metadata gets the placeholder: label = API name, type `N/A`, not updateable. |
| Inspector.SetupId | inspector/inspector.js:126-133 | A durable id without `.` is used whole. Otherwise the id used is the part after the first `.`, up to the next one. |
| Inspector.SetupIdOfDottedId | inspector/inspector.js:131-133 | `SetupId("<entity>.<field>")` and `SetupId("<entity>.<field>.<more>")` are both `<field>`. |
| Inspector.NameCellFor | inspector/inspector.js:126-142 | A setup link appears exactly when the object name is known and the field has a non-empty durable id. It starts with the origin of the base host followed by `/lightning/setup/ObjectManager/`, and ends with `/FieldsAndRelationships/<field id>/view`. |
| Inspector.OriginOf | inspector/inspector.js:135-137 | For a base `scheme://authority` followed by a path, query or fragment, only `scheme://authority` is kept when an absolute path is resolved against it. |
| Inspector.SetupLinkOnPage | inspector/inspector.js:135-137 | On a page at `scheme://authority/...`, the setup link is that origin followed by the setup path; the page's own path is dropped. |
| Inspector.SetupLinkOnRecordPage | inspector/inspector.js:135-137 | On the Lightning record page `https://a.lightning.force.com/lightning/r/Account/001x/view`, the link for durable id `Account.Name` is `https://a.lightning.force.com/lightning/setup/ObjectManager/Account/FieldsAndRelationships/Name/view`. |
| Inspector.BuildRows | inspector/inspector.js:106-150 | There is one row per record key except `attributes`, each key once, in ascending order. Each row's original is the JSON text of the field's value and its cell shows that value, with the field's or the placeholder metadata. |
| Inspector.BuiltRowsAreViewing | inspector/inspector.js:106-150 | A freshly built grid has no inputs, and each row's original parses back to the record's value. |
| Inspector.CreateInput | inspector/inspector.js:242-258 | `boolean` gives a checkbox checked iff the value is truthy; `textarea` gives a text area; anything else gives a text input. A `null` value gives an empty text. Any other value gives `String(value)` as the browser fills it in: a text area turns CR LF and a lone CR into LF, and a text input drops CR and LF. Text without line breaks is kept exactly. |
| Inspector.NormaliseLineBreaks | inspector/inspector.js:251 | A text area's value holds no CR, keeps every other character except LF in the same numbers, is empty only when the text is, and equals a text without CR. |
| Inspector.StripLineBreaks | inspector/inspector.js:255 | A text input's value holds no CR or LF, keeps every other character in the same numbers, and equals a text without line breaks. |
| Inspector.TextAreaFillNormalises | inspector/inspector.js:248-251 | An untouched text area filled with `a` CR LF `b` reads back as `a` LF `b`, so it differs from its original. |
| Inspector.Current | inspector/inspector.js:190-191 | A checkbox gives its state. A text control gives `null` exactly when it is empty, and its text otherwise. |
| Inspector.EnterEdit | inspector/inspector.js:152-174 | Only rows whose metadata exists and is updateable get an input, built from their original value. Nothing else in any row changes. |
| Inspector.EnterEditKeepsInvariants | inspector/inspector.js:158-169 | The edit mode keeps the originals and the names, and puts inputs only on updateable fields. |
| Inspector.LeaveEdit | inspector/inspector.js:170-171 | Leaving the edit mode shows each updateable row's original value again and changes nothing else. |
| Inspector.CancelKeepsOriginals | inspector/inspector.js:170-171 | Cancelling leaves every original as it was and no input behind. |
| Inspector.Diff | inspector/inspector.js:182-196 | A payload entry comes from a row with an input whose value's JSON differs from the original. Every such row contributes its entry. |
| Inspector.DiffIsValueInequality | inspector/inspector.js:190-195 | A field is in the payload iff its input's normalised value differs from its original value. |
| Inspector.UntouchedInputDiffers | inspector/inspector.js:242-257 | An untouched checkbox differs iff the original is not a boolean. An untouched text control differs iff the original is neither `null` nor a non-empty string the browser keeps as it is: one without CR in a text area, one without CR or LF in a text input. |
| Inspector.NumericOriginalAlwaysSent | inspector/inspector.js:190-195 | An updateable numeric field is in the payload even when untouched, since its input holds a string. |
| Inspector.ClearedTextIsSentAsNull | inspector/inspector.js:190-194 | A cleared text control is sent as `null`, exactly when its original is not already `null`. |
| Inspector.PayloadOnlyUpdateable | inspector/inspector.js:158-169 | Every payload key is a field the metadata marks updateable. |
| Inspector.Snapshot | inspector/inspector.js:223-229 | After a save each input row's original is the JSON of the value it saved. Other rows are untouched, and the grid stays well formed. |
| Inspector.SnapshotRediffIsEmpty | inspector/inspector.js:223-229 | Diffing the same inputs after the snapshot gives an empty payload. |
| Inspector.Save | inspector/inspector.js:178-240 | An empty diff returns to viewing with "No fields were changed." and no request. A saved update adopts the saved values as originals and returns to viewing: names and every other field are kept, each input row shows its saved value, rows without an input keep their original, updateable rows without an input show their original, non-updateable rows keep their cell, and no input is left when inputs were only on updateable rows. A failure keeps the edit mode and every input, and shows "Error saving: " with the server's first message or "Unknown error saving.". |
| Inspector.SearchVisibility | inspector/inspector.js:260-266 | A row is displayed exactly when its lower-cased text contains the lower-cased term. |
| Inspector.EmptySearchShowsAll | inspector/inspector.js:260-266 | An empty search term displays every row. |
| Inspector.AcmeSavePayload | inspector/inspector.js:178-196 | For `{Name: "Acme", Active__c: true}` with both fields updateable, typing "Acme2" into `Name` gives the payload `{Name: "Acme2"}` only. |

## Left out

- Browser calls are inputs: `chrome.cookies`, `chrome.tabs`, `chrome.action`, windows, context menus, scripting, permissions. A cookie lookup's answer, the active tab and the arrival order of callbacks are parameters.
- `fetch`, the REST calls, `DOMParser`, toasts, timers, event wiring and HTML rendering (`formatValueForDisplay`, `innerHTML`, the `tempDiv` escaping) are presentation or I/O.
- The list reload after a successful save (`loadData`) is I/O.
- `new URL(path, base)` is modelled only as keeping the scheme and authority of `base` (`Inspector.Origin`) and appending the absolute path. Its normalisation is not modelled: lower-casing the host, dropping a default port or credentials, percent-encoding path characters, and the parsing of a base without `//` after its scheme (kept whole here). Other hostnames are given strings.
- JavaScript strings are UTF-16 and can hold lone surrogates, on which `encodeURIComponent` throws `URIError` (popup.js:62, 122). Dafny strings hold only Unicode scalar values, so `UriEncoding.Encode` never fails and that throw is not modelled. The encoded values are tab URLs and Login-As addresses, which are ASCII.
- `toLowerCase` is ASCII lower case. Full Unicode case mapping is not modelled.
- The top-level `getSfHost` function at background.js:47-122 is not modelled. It refers to names that are undefined there and is never the live handler.
- The debug-only cookie, permission and window dumps in bkp/debug.js are not modelled, and neither is the `testarTecnica` routine of bkp/exemplo-simples.js.
- JSON arrays and floating-point numbers are not in `Json.Value`. Record values are null, booleans, integers, strings and objects.
- The browser's handling of what the user types is not modelled. `Inspector.TypeText` sets the text as given. The line-break handling applied when a control is filled is modelled in `Inspector.CreateInput`.
- Inspector.CreateInput: `String(value)` of an object is modelled as `[object Object]` and of an integer as its decimal text. The browser's rendering of other number forms is not modelled.
- `document.querySelector("select#fcf").value` when the page has no view dropdown (popup.js:260) throws in the browser. `UsersPage.NavigateUrl` takes the view id as a parameter.
- UsersPage.ProcessLinks: an `Anchor` records only the element that directly contains it. A link nested deeper inside an element that a Login link's clearing empties (inside a `span` of that cell, say) is removed in the browser but kept by the model. Text and other non-link content of the cleared element is not modelled.
- UsersPage.AbsolutiseIdempotent: requires the popup's domain to start with `https://`, which is how the popup always builds it (popup.js:75, 87).
- UsersPage.UsersQueryReadsBack: requires the view id to contain no `&`. Salesforce list-view ids are alphanumeric, and an `&` would split the query.
- The `match.length === 3` test in `getRecordDetailsFromUrl` always holds for a match of a two-group pattern, so `RecordUrl.RecordDetails` has no branch for it.
- The `https://` test in the link-absolutising step (popup.js:171) is implied by the leading `/` test. `UsersPage.RelativeMeansLeadingSlash` records this.

=== FILE: decimal.dfy ===
/**
  Decimal text for integers, as JavaScript writes a number into a template literal
  (`${n}`), into `JSON.stringify`, or into a text input; and its inverse.
 */
module Decimal {
  import opened Wrappers

  predicate IsDigit(c: char) {
    '0' <= c <= '9'
  }

  predicate AllDigits(s: string) {
    forall i :: 0 <= i < |s| ==> IsDigit(s[i])
  }

  function DigitChar(d: nat): (c: char)
    requires d < 10
    ensures IsDigit(c) && c as int - '0' as int == d
  {
    (d + '0' as int) as char
  }

  function DigitValue(c: char): (d: nat)
    requires IsDigit(c)
    ensures d < 10
  {
    c as int - '0' as int
  }

  /** Shortest decimal numeral of `n`: digits only, no leading zero. */
  function NatToString(n: nat): (r: string)
    ensures |r| >= 1 && AllDigits(r)
    ensures |r| > 1 ==> r[0] != '0'
    decreases n
  {
    if n < 10 then [DigitChar(n)] else NatToString(n / 10) + [DigitChar(n % 10)]
  }

  /** `${n}` for an integer `n`: a minus sign before the numeral of `-n` when negative. */
  function IntToString(n: int): (r: string)
    ensures |r| >= 1
    ensures n < 0 <==> r[0] == '-'
  {
    if n < 0 then "-" + NatToString(-n) else NatToString(n)
  }

  /** The value of a numeral, most significant digit first. */
  function DigitsValue(s: string): nat
    requires AllDigits(s)
  {
    if |s| == 0 then 0 else DigitsValue(s[..|s| - 1]) * 10 + DigitValue(s[|s| - 1])
  }

  /** Reads an optional minus sign followed by at least one digit and nothing else. */
  function ParseInt(s: string): (r: Option<int>)
    ensures r.Some? ==> |s| >= 1
  {
    if |s| >= 2 && s[0] == '-' && AllDigits(s[1..]) then Some(-(DigitsValue(s[1..]) as int))
    else if |s| >= 1 && AllDigits(s) then Some(DigitsValue(s))
    else None
  }

  lemma {:induction false} NatRoundTrip(n: nat)
    ensures DigitsValue(NatToString(n)) == n
    decreases n
  {
    if n >= 10 {
      var s := NatToString(n);
      NatRoundTrip(n / 10);
      assert s[..|s| - 1] == NatToString(n / 10);
    }
  }

  /** Reading back the decimal text of any integer yields that integer. */
  lemma IntRoundTrip(n: int)
    ensures ParseInt(IntToString(n)) == Some(n)
  {
    if n < 0 {
      NatRoundTrip(-n);
      ParseNegative(NatToString(-n));
    } else {
      NatRoundTrip(n);
      ParseDigits(NatToString(n));
    }
  }

  /** A minus sign before a numeral reads as the negated value of the numeral. */
  lemma ParseNegative(t: string)
    requires |t| >= 1 && AllDigits(t)
    ensures ParseInt("-" + t) == Some(-(DigitsValue(t) as int))
  {
    assert ("-" + t)[1..] == t;
  }

  /** A numeral reads as its value. */
  lemma ParseDigits(t: string)
    requires |t| >= 1 && AllDigits(t)
    ensures ParseInt(t) == Some(DigitsValue(t) as int)
  {
    assert t[0] != '-';
  }

  /** Distinct integers have distinct decimal texts. */
  lemma IntToStringInjective(m: int, n: int)
    ensures IntToString(m) == IntToString(n) ==> m == n
  {
    IntRoundTrip(m);
    IntRoundTrip(n);
  }
}

=== FILE: frontdoor.dfy ===
/**
  The incognito-login links: the `frontdoor.jsp` redirect that carries the current
  session id (`buildIncognitoLoginUrl`), and the rewrite of a user's "Login" link so
  that it comes back to the page the popup was opened on.

  The builder has three verbatim copies that differ only in what they log; all three
  are `BuildLoginUrl`. The debugging flow and the worked example of the technique
  that call the copies are modelled at the end.
 */
module Frontdoor {
  import opened Wrappers
  import opened Strings
  import UriEncoding
  import opened HostClassifier
  import opened SessionResolver

  const FrontdoorPath: string := "/secur/frontdoor.jsp?sid="

  /** JavaScript truthiness of a session id: missing and empty ids are both falsy. */
  predicate IsPresent(sessionId: Option<string>) {
    sessionId.Some? && sessionId.value != ""
  }

  // ---------------------------------------------------------------------------
  // Reading the last query parameter back

  /** Name and raw value of the parameter after the last `&` of a URL. */
  function LastParam(u: string): (string, string) {
    var p := AfterLast(u, '&');
    (TakeUntil(p, '='), DropThrough(p, '='))
  }

  /** The percent-decoded value of the last parameter, if it has the given name. */
  function LastParamValue(u: string, name: string): Option<string> {
    if LastParam(u).0 == name then UriEncoding.Decode(LastParam(u).1) else None
  }

  /** `x` followed by the parameter `name=v`. */
  function WithParam(x: string, name: string, v: string): string {
    x + "&" + name + "=" + v
  }

  lemma WithParamPrefix(x: string, name: string, v: string)
    ensures StartsWith(WithParam(x, name, v), x)
    ensures '&' in WithParam(x, name, v)
  {
    assert WithParam(x, name, v)[..|x|] == x;
    assert WithParam(x, name, v)[|x|] == '&';
  }

  lemma LastParamAppended(x: string, name: string, v: string)
    requires '&' !in name && '=' !in name && '&' !in v
    ensures LastParam(WithParam(x, name, v)) == (name, v)
  {
    var tail := name + "=" + v;
    assert WithParam(x, name, v) == x + ['&'] + tail;
    SplitAtLast(x, '&', tail);
    assert tail == name + ['='] + v;
    SplitAtFirst(name, '=', v);
  }

  /** A parameter appended with an `encodeURIComponent` value reads back as that value. */
  lemma EncodedParamReadsBack(x: string, name: string, plain: string)
    requires '&' !in name && '=' !in name
    ensures LastParam(WithParam(x, name, UriEncoding.Encode(plain))).1 == UriEncoding.Encode(plain)
    ensures LastParamValue(WithParam(x, name, UriEncoding.Encode(plain)), name) == Some(plain)
  {
    UriEncoding.EncodedHasNoDelimiters(plain);
    LastParamAppended(x, name, UriEncoding.Encode(plain));
    UriEncoding.DecodeEncode(plain);
  }

  /** Text put in front of a URL with a query does not change its last parameter. */
  lemma LastParamPrepend(d: string, u: string)
    requires '&' in u
    ensures LastParam(d + u) == LastParam(u)
  {
    var r := AfterLast(u, '&');
    var a := u[..|u| - |r| - 1];
    assert u == a + ['&'] + r;
    SplitAtLast(a, '&', r);
    assert d + u == (d + a) + ['&'] + r;
    SplitAtLast(d + a, '&', r);
  }

  // ---------------------------------------------------------------------------
  // The frontdoor builder

  /**
    `buildIncognitoLoginUrl`: nothing for a falsy session id; otherwise the frontdoor
    address on `domain` with the session id verbatim and the Login-As address
    percent-encoded as the last parameter, `retURL`.
   */
  function BuildLoginUrl(loginAsUrl: string, sessionId: Option<string>, domain: string): (r: Option<string>)
    ensures r.Some? <==> IsPresent(sessionId)
    ensures r.Some? ==> StartsWith(r.value, domain + FrontdoorPath + sessionId.value)
    ensures r.Some? ==> StartsWith(r.value, domain + FrontdoorPath)
    ensures r.Some? ==> EndsWith(r.value, "&retURL=" + UriEncoding.Encode(loginAsUrl))
    ensures r.Some? ==>
      |r.value| == |domain + FrontdoorPath + sessionId.value| + |"&retURL=" + UriEncoding.Encode(loginAsUrl)|
    ensures r.Some? ==> LastParamValue(r.value, "retURL") == Some(loginAsUrl)
  {
    if !IsPresent(sessionId) then None
    else
      var head := domain + FrontdoorPath + sessionId.value;
      RetUrlTail(head, UriEncoding.Encode(loginAsUrl));
      EncodedParamReadsBack(head, "retURL", loginAsUrl);
      WithParamPrefix(head, "retURL", UriEncoding.Encode(loginAsUrl));
      StartsWithShorter(WithParam(head, "retURL", UriEncoding.Encode(loginAsUrl)), domain + FrontdoorPath, sessionId.value);
      Some(WithParam(head, "retURL", UriEncoding.Encode(loginAsUrl)))
  }

  /** A `retURL` parameter appended to `x` is exactly what follows `x`. */
  lemma RetUrlTail(x: string, v: string)
    ensures EndsWith(WithParam(x, "retURL", v), "&retURL=" + v)
    ensures |WithParam(x, "retURL", v)| == |x| + |"&retURL=" + v|
  {
    var t := "&retURL=" + v;
    var u := WithParam(x, "retURL", v);
    assert "&" + "retURL" + "=" == "&retURL=";
    assert u == x + t;
    assert u[|x|..] == t;
  }

  /** The encoded `retURL` holds no query delimiter, so it cannot split or end the query early. */
  lemma RetUrlHasNoDelimiters(loginAsUrl: string, sessionId: Option<string>, domain: string)
    requires IsPresent(sessionId)
    ensures
      var v := LastParam(BuildLoginUrl(loginAsUrl, sessionId, domain).value).1;
      && v == UriEncoding.Encode(loginAsUrl)
      && '&' !in v && '?' !in v && '=' !in v && '/' !in v && '#' !in v
  {
    EncodedParamReadsBack(domain + FrontdoorPath + sessionId.value, "retURL", loginAsUrl);
    UriEncoding.EncodedHasNoDelimiters(loginAsUrl);
  }

  /** Two sessions with the same frontdoor address return to the same page. */
  lemma BuildLoginUrlInjective(l1: string, l2: string, sessionId: Option<string>, domain: string)
    requires IsPresent(sessionId)
    requires BuildLoginUrl(l1, sessionId, domain) == BuildLoginUrl(l2, sessionId, domain)
    ensures l1 == l2
  {
  }

  // ---------------------------------------------------------------------------
  // The Login-As link rewrite

  /** `[&?]name=` starts at index `i` of `s`. */
  predicate ParamAt(s: string, name: string, i: int) {
    0 <= i < |s| && (s[i] == '&' || s[i] == '?') && OccursAt(s, name + "=", i + 1)
  }

  /** The leftmost place the pattern `[&?]name=` matches. */
  predicate IsFirstParam(s: string, name: string, i: int) {
    ParamAt(s, name, i) && forall k :: 0 <= k < i ==> !ParamAt(s, name, k)
  }

  /** `[^&]*` starting at `j` matches up to `e`, and no further. */
  predicate ValueEndsAt(s: string, j: int, e: int) {
    0 <= j <= e <= |s| && (forall m :: j <= m < e ==> s[m] != '&') && (e == |s| || s[e] == '&')
  }

  function FindParam(s: string, name: string, j: nat): (r: Option<nat>)
    requires j <= |s|
    ensures r.Some? ==>
      j <= r.value && ParamAt(s, name, r.value) && forall k :: j <= k < r.value ==> !ParamAt(s, name, k)
    ensures r.None? ==> forall k :: j <= k ==> !ParamAt(s, name, k)
    decreases |s| - j
  {
    if j == |s| then None
    else if ParamAt(s, name, j) then Some(j)
    else FindParam(s, name, j + 1)
  }

  predicate NotAmp(c: char) {
    c != '&'
  }

  /**
    `s.replace(/(&|\?)name=([^&]*)/, "")`: the leftmost `&name=` or `?name=` is cut out
    together with its value, up to the next `&`; a string without one is unchanged.
   */
  function RemoveFirstParam(s: string, name: string): (r: string)
    ensures (forall k :: !ParamAt(s, name, k)) ==> r == s
    ensures forall i :: IsFirstParam(s, name, i) ==>
      exists e :: ValueEndsAt(s, i + |name| + 2, e) && r == s[..i] + s[e..]
  {
    match FindParam(s, name, 0)
    case None => s
    case Some(i) =>
      var e := RunEnd(s, i + |name| + 2, NotAmp);
      assert ValueEndsAt(s, i + |name| + 2, e);
      assert forall i' :: IsFirstParam(s, name, i') ==> i' == i;
      s[..i] + s[e..]
  }

  /** The override parameters for an encoded page address `e`. */
  function OverrideText(e: string): string {
    "isUserEntityOverride=1&retURL=" + e + "&targetURL=" + e
  }

  /** The override parameters the rewritten link ends with, after `?` or `&`. */
  function OverrideParams(tabUrl: string): string {
    OverrideText(UriEncoding.Encode(tabUrl))
  }

  /** The Login link's href with its first `retURL` and first `targetURL` parameters removed. */
  function StripReturnParams(href: string): string {
    RemoveFirstParam(RemoveFirstParam(href, "retURL"), "targetURL")
  }

  lemma RewriteShape(stripped: string, sep: char, e: string)
    ensures
      var r := stripped + [sep] + OverrideText(e);
      && StartsWith(r, stripped)
      && r[|stripped|] == sep
      && EndsWith(r, OverrideText(e))
      && '&' in r
      && (sep == '?' || '?' in stripped ==> '?' in r)
      && r == WithParam(stripped + [sep] + "isUserEntityOverride=1&retURL=" + e, "targetURL", e)
  {
    var r := stripped + [sep] + OverrideText(e);
    OverrideIsParams(stripped + [sep], e);
    assert r[..|stripped|] == stripped;
    assert r[|r| - |OverrideText(e)|..] == OverrideText(e);
    assert r[|stripped| + 23] == '&';
    if '?' in stripped {
      var k :| 0 <= k < |stripped| && stripped[k] == '?';
      assert r[k] == '?';
    }
  }

  /** The override text ends with the `targetURL` parameter. */
  lemma OverrideIsParams(x: string, e: string)
    ensures x + OverrideText(e) == WithParam(x + "isUserEntityOverride=1&retURL=" + e, "targetURL", e)
  {
  }

  /**
    The href rewrite of a Login link: return parameters removed, then the override
    parameters appended after `&` when a query is already there and after `?` when not.
   */
  function RewriteLoginHref(href: string, tabUrl: string): (r: string)
    ensures StartsWith(r, StripReturnParams(href))
    ensures EndsWith(r, OverrideParams(tabUrl))
    ensures |r| == |StripReturnParams(href)| + 1 + |OverrideParams(tabUrl)|
    ensures r[|StripReturnParams(href)|] == (if '?' in StripReturnParams(href) then '&' else '?')
    ensures '?' in r && '&' in r
    ensures LastParamValue(r, "targetURL") == Some(tabUrl)
  {
    var stripped := StripReturnParams(href);
    AppendOverride(stripped, tabUrl);
    stripped + [if '?' in stripped then '&' else '?'] + OverrideParams(tabUrl)
  }

  /** What appending the override parameters to a stripped href gives. */
  lemma AppendOverride(stripped: string, tabUrl: string)
    ensures
      var sep := if '?' in stripped then '&' else '?';
      var r := stripped + [sep] + OverrideParams(tabUrl);
      && StartsWith(r, stripped)
      && EndsWith(r, OverrideParams(tabUrl))
      && |r| == |stripped| + 1 + |OverrideParams(tabUrl)|
      && r[|stripped|] == sep
      && '?' in r && '&' in r
      && LastParamValue(r, "targetURL") == Some(tabUrl)
  {
    var sep := if '?' in stripped then '&' else '?';
    var e := UriEncoding.Encode(tabUrl);
    RewriteShape(stripped, sep, e);
    EncodedParamReadsBack(stripped + [sep] + "isUserEntityOverride=1&retURL=" + e, "targetURL", tabUrl);
  }

  /** Without a query in the stripped href, the rewrite starts the query with the override. */
  lemma RewriteStartsQuery(href: string, tabUrl: string)
    requires '?' !in StripReturnParams(href)
    ensures TakeUntil(RewriteLoginHref(href, tabUrl), '?') == StripReturnParams(href)
    ensures DropThrough(RewriteLoginHref(href, tabUrl), '?') == OverrideParams(tabUrl)
  {
    SplitAtFirst(StripReturnParams(href), '?', OverrideParams(tabUrl));
  }

  /** The "Login As" address a rewritten link leads to: the popup's domain and the rewritten href. */
  function LoginAsUrl(domain: string, href: string, tabUrl: string): (r: string)
    ensures StartsWith(r, domain)
    ensures |r| == |domain| + |RewriteLoginHref(href, tabUrl)| && r[|domain|..] == RewriteLoginHref(href, tabUrl)
    ensures LastParamValue(r, "targetURL") == Some(tabUrl)
  {
    var h := RewriteLoginHref(href, tabUrl);
    LastParamPrepend(domain, h);
    assert (domain + h)[..|domain|] == domain;
    assert (domain + h)[|domain|..] == h;
    domain + h
  }

  // ---------------------------------------------------------------------------
  // The debugging flow and the worked example

  /** Where the debugging flow stops, or the frontdoor address it built. */
  datatype DebugOutcome = NoTabUrl | NotSalesforce | NoSfHost | NoSession | Built(url: Option<string>)

  const TestOrgId: string := "00DXXXXXXXXXXXXXXX"
  const TestUserId: string := "005XXXXXXXXXXXXXXX"

  /** The Login-As address on `sfHost` that both the debugging flow and the example build. */
  function ServletSuUrl(origin: string, userId: string): (r: string)
    ensures StartsWith(r, origin + "/servlet/servlet.su?")
    ensures Contains(r, "suorgadminid=" + userId)
  {
    var a := origin + "/servlet/servlet.su?oid=" + TestOrgId + "&";
    var p := "suorgadminid=" + userId;
    var b := "&retURL=%2F";
    ContainsConcat(a, p, b);
    assert (a + p + b)[..|origin + "/servlet/servlet.su?"|] == origin + "/servlet/servlet.su?";
    a + p + b
  }

  /**
    `debugExtension`: stops when the tab has no URL, when its host fails the platform
    test, when the host lookup answers nothing, or when no session comes back;
    otherwise builds the frontdoor address on the session's host for the test Login-As
    address on the resolved host.
   */
  function DebugExtension(tabUrl: string, hostname: string, sfHost: Option<string>, session: Option<Session>)
    : (r: DebugOutcome)
    ensures r == NoTabUrl <==> tabUrl == ""
    ensures tabUrl != "" ==> (r == NotSalesforce <==> !Contains(hostname, "force.com"))
    ensures r.Built? ==> IsPresent(sfHost) && session.Some?
    ensures r.Built? ==> (r.url.Some? <==> session.value.key != "")
    ensures r.Built? && r.url.Some? ==>
      && StartsWith(r.url.value, "https://" + session.value.hostname + FrontdoorPath)
      && LastParamValue(r.url.value, "retURL") == Some(ServletSuUrl("https://" + sfHost.value, TestUserId))
  {
    SalesforceDomainIsForceCom(hostname);
    if tabUrl == "" then NoTabUrl
    else if !IsSalesforceDomain(hostname) then NotSalesforce
    else if !IsPresent(sfHost) then NoSfHost
    else if session.None? then NoSession
    else
      var domain := "https://" + session.value.hostname;
      var u := BuildLoginUrl(ServletSuUrl("https://" + sfHost.value, TestUserId), Some(session.value.key), domain);
      Built(u)
  }

  const ExampleDomain: string := "https://meuorg.my.salesforce.com"

  /**
    `exemploCompleto`: with the `sid` cookie of the example domain, the address the
    incognito window opens, or nothing when the cookie is missing or empty. The
    address returns to a `servlet.su` address on the same domain for the target user.
   */
  function ExampleComplete(sessionCookie: Option<string>): (r: Option<string>)
    ensures r.Some? <==> IsPresent(sessionCookie)
    ensures r.Some? ==> StartsWith(r.value, ExampleDomain + FrontdoorPath)
    ensures r.Some? ==> LastParamValue(r.value, "retURL").Some?
    ensures r.Some? ==>
      var back := LastParamValue(r.value, "retURL").value;
      StartsWith(back, ExampleDomain + "/servlet/servlet.su?") && Contains(back, "suorgadminid=" + TestUserId)
  {
    if !IsPresent(sessionCookie) then None
    else
      var u := BuildLoginUrl(ServletSuUrl(ExampleDomain, TestUserId), sessionCookie, ExampleDomain);
      u
  }
}

=== FILE: host_classifier.dfy ===
/**
  Which hosts and pages the extension treats as the CRM platform's: the security
  gateway alias, the platform-domain test of the `getSfHost` message handler, and the
  URL patterns that switch the toolbar button on.
 */
module HostClassifier {
  import opened Strings

  /** Hosts behind the security gateway end with this suffix and are used verbatim. */
  const GatewaySuffix: string := ".mcas.ms"

  predicate IsGatewayHost(host: string) {
    EndsWith(host, GatewaySuffix)
  }

  /**
    The platform-domain test of the message handler (and of the debug script's
    self-test): the hostname contains one of three fixed substrings.
   */
  predicate IsSalesforceDomain(host: string) {
    Contains(host, "salesforce.com") || Contains(host, "force.com") || Contains(host, "cloudforce.com")
  }

  /**
    Both `salesforce.com` and `cloudforce.com` contain `force.com`, so the three-way
    test is a single substring test.
   */
  lemma SalesforceDomainIsForceCom(host: string)
    ensures IsSalesforceDomain(host) <==> Contains(host, "force.com")
    ensures IsSalesforceDomain(host) <==> Contains(host, "salesforce.com") || Contains(host, "force.com")
  {
    assert "salesforce.com" == "sales" + "force.com" + "";
    ContainsConcat("sales", "force.com", "");
    assert "cloudforce.com" == "cloud" + "force.com" + "";
    ContainsConcat("cloud", "force.com", "");
    if Contains(host, "salesforce.com") {
      ContainsTransitive(host, "salesforce.com", "force.com");
    }
    if Contains(host, "cloudforce.com") {
      ContainsTransitive(host, "cloudforce.com", "force.com");
    }
  }

  /** URL fragments that mark a page of the platform, in the order background.js lists them. */
  const ToolbarPatterns: seq<string> := [".salesforce.com/", ".visual.force.com/", ".lightning.force.com/"]

  /** `url && sfPatterns.some(pattern => url.includes(pattern))`. */
  predicate ToolbarEnabled(url: string) {
    |url| > 0 && exists i | 0 <= i < |ToolbarPatterns| :: Contains(url, ToolbarPatterns[i])
  }

  /** What the toolbar button shows for a tab. */
  datatype ActionState = ActionState(enabled: bool, popup: string, title: string)

  /**
    The button is enabled, with the popup attached, exactly on pages matching one of
    the three patterns; elsewhere it is disabled and its popup removed. Every enabled
    page also passes the platform-domain substring test.
   */
  function UpdateActionStatus(url: string): (r: ActionState)
    ensures r.enabled <==>
      Contains(url, ".salesforce.com/") || Contains(url, ".visual.force.com/") || Contains(url, ".lightning.force.com/")
    ensures r.enabled <==> r.popup != ""
    ensures r.enabled ==> IsSalesforceDomain(url)
  {
    ToolbarFacts(url);
    if ToolbarEnabled(url) then ActionState(true, "popup.html", "Quick Login As")
    else ActionState(false, "", "Extensão inativa nesta página")
  }

  lemma ToolbarFacts(url: string)
    ensures ToolbarEnabled(url) <==>
      Contains(url, ".salesforce.com/") || Contains(url, ".visual.force.com/") || Contains(url, ".lightning.force.com/")
    ensures ToolbarEnabled(url) ==> Contains(url, "force.com")
  {
    if Contains(url, ToolbarPatterns[0]) || Contains(url, ToolbarPatterns[1]) || Contains(url, ToolbarPatterns[2]) {
      var k := 0;
      while !Contains(url, ToolbarPatterns[k])
        invariant 0 <= k < 3
        invariant forall m :: 0 <= m < k ==> !Contains(url, ToolbarPatterns[m])
        decreases 3 - k
      {
        k := k + 1;
      }
      var p := ToolbarPatterns[k];
      var a := if k == 0 then ".sales" else if k == 1 then ".visual." else ".lightning.";
      assert p == a + "force.com" + "/";
      ContainsConcat(a, "force.com", "/");
      ContainsTransitive(url, p, "force.com");
      ContainsChar(url, p, 0);
    }
  }
}

=== FILE: inspector.dfy ===
/**
  The record inspector: the field grid built from a record and its describe metadata,
  the edit mode that puts inputs on updateable fields, the diff that decides which
  fields go into the partial update, the snapshot kept after a successful save, and
  the search box.

  Each row keeps its field's original value as JSON text, as the grid does; the JSON
  round trip makes comparing those texts the same as comparing values.
 */
module Inspector {
  import opened Wrappers
  import opened Strings
  import opened Json
  import Decimal
  import Sorting

  /** A field's describe metadata, as far as the grid and the edit mode use it. */
  datatype FieldMeta = FieldMeta(name: string, displayLabel: string, fieldType: string, updateable: bool)

  /** The describe metadata by field API name. */
  type MetaMap = map<string, FieldMeta>

  /** A record as the REST API returns it: fields in order, each name once. */
  type Record = seq<Field>

  /** The value cell: the value shown, or one of the three kinds of input. */
  datatype Cell = Shown(v: Value) | CheckboxInput(checked: bool) | TextAreaInput(text: string) | TextInput(text: string)

  /** The API-name cell: the bare name, or a link to the field's setup page. */
  datatype NameCell = PlainName | SetupLink(url: string)

  /** One row of the grid. `original` is the JSON text of the value the row was built or last saved with. */
  datatype Row = Row(apiName: string, displayLabel: string, fieldType: string, updateable: bool, original: string,
                     nameCell: NameCell, cell: Cell)

  // ---------------------------------------------------------------------------
  // Building the grid

  function Keys(record: Record): (ks: seq<string>)
    ensures |ks| == |record|
    ensures forall i :: 0 <= i < |record| ==> ks[i] == record[i].key
  {
    seq(|record|, i requires 0 <= i < |record| => record[i].key)
  }

  predicate DistinctKeys(record: Record) {
    Sorting.Distinct(Keys(record))
  }

  /** `data[key]`. */
  function Lookup(record: Record, key: string): (v: Value)
    requires key in Keys(record)
    ensures exists i :: 0 <= i < |record| && record[i].key == key && record[i].val == v
  {
    if record[0].key == key then record[0].val
    else
      assert key in Keys(record[1..]) by {
        var i :| 0 <= i < |record| && Keys(record)[i] == key;
        assert Keys(record[1..])[i - 1] == key;
      }
      var v := Lookup(record[1..], key);
      ghost var i :| 0 <= i < |record[1..]| && record[1..][i].key == key && record[1..][i].val == v;
      assert record[i + 1] == record[1..][i];
      v
  }

  /** The metadata a row is built with: the describe entry, or a placeholder that is not updateable. */
  function MetaFor(meta: MetaMap, apiName: string): (m: FieldMeta)
    ensures apiName in meta ==> m == meta[apiName]
    ensures apiName !in meta ==> m.displayLabel == apiName && m.fieldType == "N/A" && !m.updateable
  {
    if apiName in meta then meta[apiName] else FieldMeta(apiName, apiName, "N/A", false)
  }

  /** The record's own description entry, which the grid skips. */
  const AttributesKey: string := "attributes"

  /** The sorted names with the attributes entry removed, order kept. */
  function WithoutAttributes(names: seq<string>): (r: seq<string>)
    ensures forall x :: x in r <==> x in names && x != AttributesKey
    ensures Sorting.Sorted(names) ==> Sorting.Sorted(r)
  {
    if |names| == 0 then []
    else
      var rest := WithoutAttributes(names[1..]);
      assert forall x :: x in names <==> x == names[0] || x in names[1..];
      if names[0] == AttributesKey then rest
      else
        assert Sorting.Sorted(names) ==> Sorting.Sorted([names[0]] + rest) by {
          if Sorting.Sorted(names) {
            forall y | y in rest ensures Sorting.Below(names[0], y) {
              var j :| 0 <= j < |names[1..]| && names[1..][j] == y;
              assert names[j + 1] == y;
            }
          }
        }
        [names[0]] + rest
  }

  /** `fieldDurableId.includes('.') ? fieldDurableId.split('.')[1] : fieldDurableId`. */
  function SetupId(durableId: string): (r: string)
    ensures '.' !in durableId ==> r == durableId
    ensures '.' in durableId ==> '.' !in r && StartsWith(DropThrough(durableId, '.'), r)
  {
    if '.' in durableId then TakeUntil(DropThrough(durableId, '.'), '.') else durableId
  }

  /** A dotted durable id `<entity>.<field>` or `<entity>.<field>.<more>` links to its `<field>` part. */
  lemma SetupIdOfDottedId(entity: string, field: string, more: string)
    requires '.' !in entity && '.' !in field
    ensures SetupId(entity + "." + field) == field
    ensures SetupId(entity + "." + field + "." + more) == field
  {
    assert entity + "." + field == entity + ['.'] + field;
    SplitAtFirst(entity, '.', field);
    assert entity + "." + field + "." + more == entity + ['.'] + (field + ['.'] + more);
    SplitAtFirst(entity, '.', field + ['.'] + more);
    SplitAtFirst(field, '.', more);
  }

  /** The host a setup link is resolved against: `sfHost` itself when it starts with `http`. */
  function BaseHost(sfHost: string): (r: string)
    ensures StartsWith(r, "http")
  {
    if StartsWith(sfHost, "http") then sfHost
    else
      assert ("https://" + sfHost)[..4] == "http";
      "https://" + sfHost
  }

  /** A character that can sit in the authority of a `http(s)` URL: not one that ends it. */
  predicate InAuthority(c: char) {
    c != '/' && c != '\\' && c != '?' && c != '#'
  }

  /**
    What `new URL(path, base)` keeps of `base` for a `path` that starts with `/`: its
    scheme, `://` and authority, up to the first `/`, `\\`, `?` or `#` after `//`.
    A base without `//` after its scheme is kept whole.
   */
  function Origin(base: string): (r: string)
    ensures ':' in base && StartsWith(DropThrough(base, ':'), "//") ==> StartsWith(base, r)
  {
    var after := DropThrough(base, ':');
    if ':' in base && StartsWith(after, "//") then
      var scheme := TakeUntil(base, ':');
      var k := RunEnd(after, 2, InAuthority);
      OriginIsPrefix(scheme, after, k);
      scheme + "://" + after[2..k]
    else base
  }

  lemma OriginIsPrefix(scheme: string, after: string, k: int)
    requires StartsWith(after, "//") && 2 <= k <= |after|
    ensures StartsWith(scheme + [':'] + after, scheme + "://" + after[2..k])
  {
    var r := scheme + "://" + after[2..k];
    assert "://" == [':'] + "//";
    assert after == "//" + after[2..k] + after[k..];
    assert r == (scheme + [':'] + after)[..|r|];
  }

  /** The origin of `scheme://authority` followed by a path, query or fragment is `scheme://authority`. */
  lemma OriginOf(scheme: string, authority: string, rest: string)
    requires ':' !in scheme
    requires forall k :: 0 <= k < |authority| ==> InAuthority(authority[k])
    requires rest == "" || !InAuthority(rest[0])
    ensures Origin(scheme + "://" + authority + rest) == scheme + "://" + authority
  {
    var b := "//" + authority + rest;
    SchemePieces(scheme, authority, rest);
    SplitAtFirst(scheme, ':', b);
    RunEndAt(b, 2, 2 + |authority|, InAuthority);
  }

  /** How `scheme://authority` followed by `rest` splits at its first `:` and after `//`. */
  lemma SchemePieces(scheme: string, authority: string, rest: string)
    ensures
      var b := "//" + authority + rest;
      && scheme + "://" + authority + rest == scheme + [':'] + b
      && StartsWith(b, "//")
      && b[2..2 + |authority|] == authority
      && (forall k :: 2 <= k < 2 + |authority| ==> b[k] == authority[k - 2])
      && (rest != "" ==> b[2 + |authority|] == rest[0])
      && (rest == "" ==> |b| == 2 + |authority|)
      && scheme + "://" + authority == scheme + "://" + b[2..2 + |authority|]
  {
    var b := "//" + authority + rest;
    assert "://" == [':'] + "//";
    assert b[..2] == "//";
  }

  /** The field setup page path for `sobjectName` and a durable field id. */
  function SetupPath(sobjectName: string, durableId: string): string {
    "/lightning/setup/ObjectManager/" + sobjectName + "/FieldsAndRelationships/" + SetupId(durableId) + "/view"
  }

  /**
    The API-name cell: a setup link when the object name is known and the field has a
    durable id. The link is the setup path resolved against the page's origin.
   */
  function NameCellFor(sobjectName: string, sfHost: string, fieldIds: map<string, string>, apiName: string)
    : (c: NameCell)
    ensures c.SetupLink? <==> sobjectName != "" && apiName in fieldIds && fieldIds[apiName] != ""
    ensures c.SetupLink? ==>
      && StartsWith(c.url, Origin(BaseHost(sfHost)) + "/lightning/setup/ObjectManager/")
      && EndsWith(c.url, "/FieldsAndRelationships/" + SetupId(fieldIds[apiName]) + "/view")
  {
    if sobjectName != "" && apiName in fieldIds && fieldIds[apiName] != "" then
      Framed(Origin(BaseHost(sfHost)), "/lightning/setup/ObjectManager/", sobjectName,
             "/FieldsAndRelationships/", SetupId(fieldIds[apiName]), "/view");
      SetupLink(Origin(BaseHost(sfHost)) + SetupPath(sobjectName, fieldIds[apiName]))
    else PlainName
  }

  /** A path `p + s + f + i + v` put after `o` starts with `o + p` and ends with `f + i + v`. */
  lemma Framed(o: string, p: string, s: string, f: string, i: string, v: string)
    ensures StartsWith(o + (p + s + f + i + v), o + p)
    ensures EndsWith(o + (p + s + f + i + v), f + i + v)
  {
    var u := o + (p + s + f + i + v);
    assert u[..|o + p|] == o + p;
    assert u[|u| - |f + i + v|..] == f + i + v;
  }

  /**
    For a page at `scheme://authority` followed by a path, the setup link is that origin
    followed by the setup path: the page's own path is dropped.
   */
  lemma SetupLinkOnPage(scheme: string, authority: string, rest: string, sobjectName: string,
                        fieldIds: map<string, string>, apiName: string)
    requires StartsWith(scheme, "http") && ':' !in scheme
    requires forall k :: 0 <= k < |authority| ==> InAuthority(authority[k])
    requires rest == "" || !InAuthority(rest[0])
    requires sobjectName != "" && apiName in fieldIds && fieldIds[apiName] != ""
    ensures NameCellFor(sobjectName, scheme + "://" + authority + rest, fieldIds, apiName)
      == SetupLink(scheme + "://" + authority + SetupPath(sobjectName, fieldIds[apiName]))
  {
    var host := scheme + "://" + authority + rest;
    assert host[..4] == scheme[..4];
    assert BaseHost(host) == host;
    OriginOf(scheme, authority, rest);
  }

  /**
    On a Lightning record page the setup link leaves the record path behind: it is the
    page's origin followed by the setup path of the field `Name`.
   */
  lemma SetupLinkOnRecordPage()
    ensures NameCellFor("Account", "https" + "://" + "a.lightning.force.com" + "/lightning/r/Account/001x/view",
                        map["Name" := "Account" + "." + "Name"], "Name")
      == SetupLink("https" + "://" + "a.lightning.force.com" + SetupPath("Account", "Name"))
  {
    var ids := map["Name" := "Account" + "." + "Name"];
    assert "https"[..4] == "http";
    SetupLinkOnPage("https", "a.lightning.force.com", "/lightning/r/Account/001x/view", "Account", ids, "Name");
    AccountNameSetupId();
  }

  lemma AccountNameSetupId()
    ensures SetupId("Account" + "." + "Name") == "Name"
  {
    SetupIdOfDottedId("Account", "Name", "");
  }

  function RowFor(record: Record, meta: MetaMap, sobjectName: string, sfHost: string,
                  fieldIds: map<string, string>, apiName: string): (row: Row)
    requires apiName in Keys(record)
    ensures row.apiName == apiName
  {
    var m := MetaFor(meta, apiName);
    var v := Lookup(record, apiName);
    Row(apiName, m.displayLabel, m.fieldType, m.updateable, Encode(v), NameCellFor(sobjectName, sfHost, fieldIds, apiName), Shown(v))
  }

  /** The API names of the rows, top to bottom. */
  function Names(rows: seq<Row>): (ns: seq<string>)
    ensures |ns| == |rows|
    ensures forall i :: 0 <= i < |rows| ==> ns[i] == rows[i].apiName
  {
    seq(|rows|, i requires 0 <= i < |rows| => rows[i].apiName)
  }

  /** The record's field names in ascending order, without `attributes`. */
  function GridNames(record: Record): (names: seq<string>)
    requires DistinctKeys(record)
    ensures forall k :: k in names <==> k in Keys(record) && k != AttributesKey
    ensures Sorting.Sorted(names)
    ensures Sorting.Distinct(names)
  {
    var sorted := Sorting.Sort(Keys(record));
    assert forall x :: x in sorted <==> x in multiset(Keys(record));
    var names := WithoutAttributes(sorted);
    Sorting.SortedIsDistinct(names);
    names
  }

  /** One row per name, in the order given. */
  function RowsFor(record: Record, meta: MetaMap, sobjectName: string, sfHost: string,
                   fieldIds: map<string, string>, names: seq<string>): (rows: seq<Row>)
    requires forall k :: k in names ==> k in Keys(record)
    ensures Names(rows) == names
    ensures forall i :: 0 <= i < |rows| ==>
      && rows[i].apiName in Keys(record)
      && rows[i].original == Encode(Lookup(record, rows[i].apiName))
      && rows[i].cell == Shown(Lookup(record, rows[i].apiName))
      && rows[i].displayLabel == MetaFor(meta, rows[i].apiName).displayLabel
      && rows[i].fieldType == MetaFor(meta, rows[i].apiName).fieldType
      && rows[i].updateable == MetaFor(meta, rows[i].apiName).updateable
    ensures WellFormed(rows)
  {
    forall v: Value ensures Canonical(Encode(v)) {
      EncodeIsCanonical(v);
    }
    seq(|names|, i requires 0 <= i < |names| => RowFor(record, meta, sobjectName, sfHost, fieldIds, names[i]))
  }

  /**
    `displayRecordData`: one row per record field except `attributes`, in ascending
    order of field names; fields missing from the metadata get the placeholder.
   */
  function BuildRows(record: Record, meta: MetaMap, sobjectName: string, sfHost: string, fieldIds: map<string, string>)
    : (rows: seq<Row>)
    requires DistinctKeys(record)
    ensures forall k :: k in Names(rows) <==> k in Keys(record) && k != AttributesKey
    ensures Sorting.Sorted(Names(rows))
    ensures Sorting.Distinct(Names(rows))
    ensures forall i :: 0 <= i < |rows| ==>
      && rows[i].apiName in Keys(record)
      && rows[i].original == Encode(Lookup(record, rows[i].apiName))
      && rows[i].cell == Shown(Lookup(record, rows[i].apiName))
      && rows[i].displayLabel == MetaFor(meta, rows[i].apiName).displayLabel
      && rows[i].fieldType == MetaFor(meta, rows[i].apiName).fieldType
      && rows[i].updateable == MetaFor(meta, rows[i].apiName).updateable
    ensures WellFormed(rows)
  {
    RowsFor(record, meta, sobjectName, sfHost, fieldIds, GridNames(record))
  }

  // ---------------------------------------------------------------------------
  // Edit mode

  /** JavaScript truthiness, which the checkbox's `checked` property applies to the value. */
  predicate Truthy(v: Value) {
    match v
    case Null => false
    case Bool(b) => b
    case Int(i) => i != 0
    case Str(s) => s != ""
    case Obj(_) => true
  }

  /** `String(v)`, which a text control applies to the value it is given. */
  function ToText(v: Value): string {
    match v
    case Null => "null"
    case Bool(b) => if b then "true" else "false"
    case Int(i) => Decimal.IntToString(i)
    case Str(s) => s
    case Obj(_) => "[object Object]"
  }

  predicate HasInput(c: Cell) {
    !c.Shown?
  }

  predicate IsLineBreak(ch: char) {
    ch == '\r' || ch == '\n'
  }

  /** The value sanitisation of a single-line text input: every CR and LF is removed. */
  function StripLineBreaks(s: string): (r: string)
    ensures forall k :: 0 <= k < |r| ==> !IsLineBreak(r[k])
    ensures (forall k :: 0 <= k < |s| ==> !IsLineBreak(s[k])) ==> r == s
    ensures forall ch :: !IsLineBreak(ch) ==> multiset(r)[ch] == multiset(s)[ch]
  {
    if s == [] then []
    else
      assert s == [s[0]] + s[1..];
      if IsLineBreak(s[0]) then StripLineBreaks(s[1..]) else [s[0]] + StripLineBreaks(s[1..])
  }

  /** The line-break normalisation of a text area's value: CR LF and a lone CR both become LF. */
  function NormaliseLineBreaks(s: string): (r: string)
    ensures '\r' !in r
    ensures '\r' !in s ==> r == s
    ensures |r| == 0 <==> |s| == 0
    ensures forall ch :: !IsLineBreak(ch) ==> multiset(r)[ch] == multiset(s)[ch]
  {
    if s == [] then []
    else if s[0] == '\r' && |s| > 1 && s[1] == '\n' then
      assert s == [s[0], s[1]] + s[2..];
      "\n" + NormaliseLineBreaks(s[2..])
    else
      assert s == [s[0]] + s[1..];
      (if s[0] == '\r' then "\n" else [s[0]]) + NormaliseLineBreaks(s[1..])
  }

  /**
    `createInputElement(type, value)`: a checkbox for booleans, a text area for text
    areas, a text input otherwise. Filling a text control passes `String(value)` through
    the browser: a text area normalises its line breaks, a text input drops them.
   */
  function CreateInput(fieldType: string, v: Value): (c: Cell)
    ensures HasInput(c)
    ensures c.CheckboxInput? <==> fieldType == "boolean"
    ensures c.TextAreaInput? <==> fieldType == "textarea"
    ensures c.CheckboxInput? ==> (c.checked <==> Truthy(v))
    ensures !c.CheckboxInput? && v.Null? ==> c == TextAreaInput("") || c == TextInput("")
    ensures c.TextAreaInput? && !v.Null? ==> c.text == NormaliseLineBreaks(ToText(v))
    ensures c.TextInput? && !v.Null? ==> c.text == StripLineBreaks(ToText(v))
    ensures !c.CheckboxInput? && !v.Null? && (forall k :: 0 <= k < |ToText(v)| ==> !IsLineBreak(ToText(v)[k])) ==>
      c.text == ToText(v)
  {
    var text := if v.Null? then "" else ToText(v);
    if fieldType == "boolean" then CheckboxInput(Truthy(v))
    else if fieldType == "textarea" then TextAreaInput(NormaliseLineBreaks(text))
    else TextInput(StripLineBreaks(text))
  }

  /** An untouched text area filled with `a` CR LF `b` reads back as `a` LF `b`. */
  lemma TextAreaFillNormalises()
    ensures Current(CreateInput("textarea", Str("a" + "\r\n" + "b"))) == Str("a" + "\n" + "b")
  {
    var tail := "\r\n" + "b";
    assert '\r' !in "b";
    assert tail[0] == '\r' && tail[1] == '\n' && tail[2..] == "b";
    assert NormaliseLineBreaks(tail) == "\n" + "b";
    var s := "a" + tail;
    assert s[0] == 'a' && s[1..] == tail;
    assert s == "a" + "\r\n" + "b";
    assert NormaliseLineBreaks(s) == "a" + ("\n" + "b") == "a" + "\n" + "b";
  }

  /** The value an input holds when saved: the checkbox state, or the text with `''` read as `null`. */
  function Current(c: Cell): (v: Value)
    requires HasInput(c)
    ensures c.CheckboxInput? ==> v == Bool(c.checked)
    ensures !c.CheckboxInput? ==> (v.Null? <==> c.text == "")
    ensures !c.CheckboxInput? && c.text != "" ==> v == Str(c.text)
  {
    match c
    case CheckboxInput(b) => Bool(b)
    case TextAreaInput(t) => if t == "" then Null else Str(t)
    case TextInput(t) => if t == "" then Null else Str(t)
  }

  /** The edit mode puts an input on a row only when the describe metadata has the field as updateable. */
  predicate Editable(meta: MetaMap, apiName: string) {
    apiName in meta && meta[apiName].updateable
  }

  /** A text `JSON.stringify` can have written: it parses, and writing the parsed value back gives the same text. */
  predicate Canonical(text: string) {
    Parse(text).Some? && Encode(Parse(text).value) == text
  }

  /** Every encoded value is canonical. */
  lemma EncodeIsCanonical(v: Value)
    ensures Canonical(Encode(v))
    ensures Parse(Encode(v)) == Some(v)
  {
    ParseEncode(v);
  }

  /** Every row's original text is one `JSON.stringify` wrote. */
  predicate WellFormed(rows: seq<Row>) {
    forall i :: 0 <= i < |rows| ==> Canonical(rows[i].original)
  }

  /** Inputs sit only on rows the metadata marks updateable. */
  predicate InputsOnlyEditable(rows: seq<Row>, meta: MetaMap) {
    forall i :: 0 <= i < |rows| ==> HasInput(rows[i].cell) ==> Editable(meta, rows[i].apiName)
  }

  /** The value a row was built or last saved with. */
  function Original(row: Row): Value
    requires Parse(row.original).Some?
  {
    Parse(row.original).value
  }

  /** A freshly built grid has no inputs, and each row's original value is the record's value. */
  lemma BuiltRowsAreViewing(record: Record, meta: MetaMap, sobjectName: string, sfHost: string, fieldIds: map<string, string>)
    requires DistinctKeys(record)
    ensures InputsOnlyEditable(BuildRows(record, meta, sobjectName, sfHost, fieldIds), meta)
    ensures forall r :: r in BuildRows(record, meta, sobjectName, sfHost, fieldIds) ==> Original(r) == Lookup(record, r.apiName)
  {
    var rows := BuildRows(record, meta, sobjectName, sfHost, fieldIds);
    forall i | 0 <= i < |rows| ensures Original(rows[i]) == Lookup(record, rows[i].apiName) {
      EncodeIsCanonical(Lookup(record, rows[i].apiName));
    }
  }

  /** `toggleMassEditMode(true)`: updateable rows get an input holding their original value. */
  function EnterEdit(rows: seq<Row>, meta: MetaMap): (r: seq<Row>)
    requires WellFormed(rows)
    ensures |r| == |rows|
    ensures forall i :: 0 <= i < |rows| ==> r[i] == rows[i].(cell := r[i].cell)
    ensures forall i :: 0 <= i < |rows| && Editable(meta, rows[i].apiName) ==>
      r[i].cell == CreateInput(meta[rows[i].apiName].fieldType, Original(rows[i]))
    ensures forall i :: 0 <= i < |rows| && !Editable(meta, rows[i].apiName) ==> r[i] == rows[i]
  {
    seq(|rows|, i requires 0 <= i < |rows| =>
      if Editable(meta, rows[i].apiName)
      then rows[i].(cell := CreateInput(meta[rows[i].apiName].fieldType, Original(rows[i])))
      else rows[i])
  }

  /** `toggleMassEditMode(false)`: updateable rows show their original value again. */
  function LeaveEdit(rows: seq<Row>, meta: MetaMap): (r: seq<Row>)
    requires WellFormed(rows)
    ensures |r| == |rows|
    ensures forall i :: 0 <= i < |rows| ==> r[i] == rows[i].(cell := r[i].cell)
    ensures forall i :: 0 <= i < |rows| && Editable(meta, rows[i].apiName) ==> r[i].cell == Shown(Original(rows[i]))
    ensures forall i :: 0 <= i < |rows| && !Editable(meta, rows[i].apiName) ==> r[i] == rows[i]
  {
    seq(|rows|, i requires 0 <= i < |rows| =>
      if Editable(meta, rows[i].apiName) then rows[i].(cell := Shown(Original(rows[i]))) else rows[i])
  }

  /** Cancelling keeps every original; from a grid without stray inputs it leaves no input behind. */
  lemma CancelKeepsOriginals(rows: seq<Row>, meta: MetaMap)
    requires WellFormed(rows) && InputsOnlyEditable(rows, meta)
    ensures forall i :: 0 <= i < |rows| ==> LeaveEdit(rows, meta)[i].original == rows[i].original
    ensures forall i :: 0 <= i < |rows| ==> !HasInput(LeaveEdit(rows, meta)[i].cell)
  {
  }

  /** Entering the edit mode keeps the originals and puts inputs only where the metadata allows them. */
  lemma EnterEditKeepsInvariants(rows: seq<Row>, meta: MetaMap)
    requires WellFormed(rows) && InputsOnlyEditable(rows, meta)
    ensures WellFormed(EnterEdit(rows, meta))
    ensures InputsOnlyEditable(EnterEdit(rows, meta), meta)
    ensures Names(EnterEdit(rows, meta)) == Names(rows)
  {
  }

  /** The user types into a text input or text area. */
  function TypeText(c: Cell, text: string): (r: Cell)
    ensures c.TextInput? || c.TextAreaInput? ==> (r.TextInput? || r.TextAreaInput?) && r.text == text && (r.TextInput? <==> c.TextInput?)
    ensures !(c.TextInput? || c.TextAreaInput?) ==> r == c
  {
    match c
    case TextInput(_) => TextInput(text)
    case TextAreaInput(_) => TextAreaInput(text)
    case _ => c
  }

  // ---------------------------------------------------------------------------
  // The diff and the save

  /** The row has an input whose value's JSON text is not the original's. */
  predicate Changed(row: Row) {
    HasInput(row.cell) && Encode(Current(row.cell)) != row.original
  }

  /** The payload entry of a row with an input. */
  function Entry(row: Row): Field
    requires HasInput(row.cell)
  {
    Field(row.apiName, Current(row.cell))
  }

  /**
    The partial-update payload of `handleMassSave`: for each row with an input, in
    grid order, the input's value when its JSON text differs from the original's.
   */
  function Diff(rows: seq<Row>): (payload: seq<Field>)
    ensures forall f :: f in payload ==> exists i :: 0 <= i < |rows| && Changed(rows[i]) && f == Entry(rows[i])
    ensures forall i :: 0 <= i < |rows| && Changed(rows[i]) ==> Entry(rows[i]) in payload
  {
    if |rows| == 0 then []
    else
      var rest := Diff(rows[1..]);
      assert forall i :: 1 <= i < |rows| ==> rows[i] == rows[1..][i - 1];
      if Changed(rows[0]) then [Entry(rows[0])] + rest else rest
  }

  /** In value terms: a row's field is in the payload exactly when its input's value is not its original value. */
  lemma DiffIsValueInequality(rows: seq<Row>, i: int)
    requires WellFormed(rows) && Sorting.Distinct(Names(rows))
    requires 0 <= i < |rows| && HasInput(rows[i].cell)
    ensures (exists f :: f in Diff(rows) && f.key == rows[i].apiName) <==> Current(rows[i].cell) != Original(rows[i])
  {
    var v := Original(rows[i]);
    var cur := Current(rows[i].cell);
    assert rows[i].original == Encode(v);
    EncodeInjective(cur, v);
    if cur != v {
      assert Changed(rows[i]);
      assert Entry(rows[i]) in Diff(rows);
    }
    forall f | f in Diff(rows) && f.key == rows[i].apiName ensures cur != v {
      DiffValue(rows, i, f);
    }
  }

  /** The payload entry for a field carries the value of that field's input. */
  lemma DiffValue(rows: seq<Row>, i: int, f: Field)
    requires Sorting.Distinct(Names(rows))
    requires 0 <= i < |rows| && f in Diff(rows) && f.key == rows[i].apiName
    ensures HasInput(rows[i].cell) && f.val == Current(rows[i].cell) && Encode(f.val) != rows[i].original
  {
    var j := DiffSource(rows, f);
    SameNameSameRow(rows, i, j);
  }

  /** The row a payload entry comes from. */
  lemma DiffSource(rows: seq<Row>, f: Field) returns (j: int)
    requires f in Diff(rows)
    ensures 0 <= j < |rows| && Changed(rows[j]) && f == Entry(rows[j])
  {
    j :| 0 <= j < |rows| && Changed(rows[j]) && f == Entry(rows[j]);
  }

  lemma SameNameSameRow(rows: seq<Row>, i: int, j: int)
    requires Sorting.Distinct(Names(rows)) && 0 <= i < |rows| && 0 <= j < |rows|
    requires rows[i].apiName == rows[j].apiName
    ensures i == j
  {
    Sorting.DistinctIndex(Names(rows), i, j);
  }

  /**
    A cleared text control is sent as `null`: the row is in the payload exactly when its
    original is not already `null`, and then with the value `null`.
   */
  lemma ClearedTextIsSentAsNull(rows: seq<Row>, i: int)
    requires WellFormed(rows) && Sorting.Distinct(Names(rows))
    requires 0 <= i < |rows| && HasInput(rows[i].cell) && !rows[i].cell.CheckboxInput? && rows[i].cell.text == ""
    ensures (exists f :: f in Diff(rows) && f.key == rows[i].apiName) <==> !Original(rows[i]).Null?
    ensures forall f :: f in Diff(rows) && f.key == rows[i].apiName ==> f.val == Null
  {
    DiffIsValueInequality(rows, i);
    forall f | f in Diff(rows) && f.key == rows[i].apiName ensures f.val == Null {
      DiffValue(rows, i, f);
    }
  }

  /** Payload keys are fields the metadata marks updateable. */
  lemma PayloadOnlyUpdateable(rows: seq<Row>, meta: MetaMap)
    requires InputsOnlyEditable(rows, meta)
    ensures forall f :: f in Diff(rows) ==> Editable(meta, f.key)
  {
  }

  /**
    The value the untouched input of a row with original value `v` sends: a checkbox
    differs unless `v` is a boolean; a text control differs unless `v` is `null` or a
    non-empty string the browser keeps as it is: one without CR in a text area, one
    without CR or LF in a text input. Numbers, booleans in text fields, objects, `""`
    and strings whose line breaks the browser rewrites are sent.
   */
  lemma UntouchedInputDiffers(fieldType: string, v: Value)
    ensures var c := CreateInput(fieldType, v);
      Current(c) != v <==>
        if fieldType == "boolean" then !v.Bool?
        else !(v.Null? || (v.Str? && v.s != "" && '\r' !in v.s && (fieldType == "textarea" || '\n' !in v.s)))
  {
    var c := CreateInput(fieldType, v);
    if fieldType != "boolean" && v.Str? && v.s != "" {
      if fieldType == "textarea" && '\r' in v.s {
        assert c.text != v.s;
      } else if fieldType != "textarea" && ('\r' in v.s || '\n' in v.s) {
        var k :| 0 <= k < |v.s| && IsLineBreak(v.s[k]);
        assert k >= |c.text| || c.text[k] != v.s[k];
      }
    }
  }

  /** A numeric original always goes into the payload: its input holds a string. */
  lemma NumericOriginalAlwaysSent(rows: seq<Row>, meta: MetaMap, i: int)
    requires WellFormed(rows) && Sorting.Distinct(Names(rows))
    requires 0 <= i < |rows| && Editable(meta, rows[i].apiName) && Original(rows[i]).Int?
    ensures exists f :: f in Diff(EnterEdit(rows, meta)) && f.key == rows[i].apiName
  {
    var e := EnterEdit(rows, meta);
    assert Names(e) == Names(rows);
    assert Original(e[i]) == Original(rows[i]);
    UntouchedInputDiffers(meta[rows[i].apiName].fieldType, Original(rows[i]));
    DiffIsValueInequality(e, i);
  }

  /** The rows after a successful save: each input row's original becomes the value it saved. */
  function Snapshot(rows: seq<Row>): (r: seq<Row>)
    ensures |r| == |rows|
    ensures forall i :: 0 <= i < |rows| ==> r[i] == rows[i].(original := r[i].original)
    ensures forall i :: 0 <= i < |rows| && HasInput(rows[i].cell) ==> Parse(r[i].original) == Some(Current(rows[i].cell))
    ensures forall i :: 0 <= i < |rows| && !HasInput(rows[i].cell) ==> r[i] == rows[i]
    ensures WellFormed(rows) ==> WellFormed(r)
  {
    forall v: Value ensures Canonical(Encode(v)) && Parse(Encode(v)) == Some(v) {
      EncodeIsCanonical(v);
    }
    seq(|rows|, i requires 0 <= i < |rows| =>
      if HasInput(rows[i].cell) then rows[i].(original := Encode(Current(rows[i].cell))) else rows[i])
  }

  /** After a save, diffing the same inputs again finds nothing to send. */
  lemma SnapshotRediffIsEmpty(rows: seq<Row>)
    ensures Diff(Snapshot(rows)) == []
  {
    var s := Snapshot(rows);
    forall i | 0 <= i < |s| && HasInput(s[i].cell) ensures Encode(Current(s[i].cell)) == s[i].original {
      assert Parse(s[i].original) == Some(Current(rows[i].cell));
    }
    DiffOfUnchanged(s);
  }

  /** When every input holds the JSON of its original, the payload is empty. */
  lemma {:induction false} DiffOfUnchanged(rows: seq<Row>)
    requires forall i :: 0 <= i < |rows| && HasInput(rows[i].cell) ==> Encode(Current(rows[i].cell)) == rows[i].original
    ensures Diff(rows) == []
  {
    if |rows| > 0 {
      assert forall i :: 0 <= i < |rows[1..]| ==> rows[1..][i] == rows[i + 1];
      DiffOfUnchanged(rows[1..]);
    }
  }

  /** The server's answer to the partial update. */
  datatype SaveResponse =
    | Saved
    | Rejected(firstMessage: Option<string>)  // the `message` of the first error entry, if any
    | Failed(message: string)                 // the session lookup or the request itself threw

  /** The grid after a save, the notification shown, and whether the edit mode is still on. */
  datatype SaveOutcome = SaveOutcome(rows: seq<Row>, toast: string, editing: bool)

  /**
    `handleMassSave`: nothing changed returns to viewing without a request; a saved
    update keeps the saved values as the new originals and returns to viewing; a
    failure keeps the edit mode and every input, and shows the error.
   */
  function Save(rows: seq<Row>, meta: MetaMap, response: SaveResponse): (out: SaveOutcome)
    requires WellFormed(rows)
    ensures Diff(rows) == [] ==> out == SaveOutcome(LeaveEdit(rows, meta), "No fields were changed.", false)
    ensures Diff(rows) != [] && response.Saved? ==>
      && out.toast == "Record updated successfully!" && !out.editing
      && WellFormed(out.rows)
      && |out.rows| == |rows|
      && (forall i :: 0 <= i < |rows| && HasInput(rows[i].cell) ==> Original(out.rows[i]) == Current(rows[i].cell))
      && (forall i :: 0 <= i < |rows| ==> out.rows[i].apiName == rows[i].apiName)
      && (forall i :: 0 <= i < |rows| ==> out.rows[i] == rows[i].(original := out.rows[i].original, cell := out.rows[i].cell))
      && (forall i :: 0 <= i < |rows| && !HasInput(rows[i].cell) ==> out.rows[i].original == rows[i].original)
      && (forall i :: 0 <= i < |rows| && !Editable(meta, rows[i].apiName) ==> out.rows[i].cell == rows[i].cell)
      && (forall i :: 0 <= i < |rows| && !HasInput(rows[i].cell) && Editable(meta, rows[i].apiName) ==>
            out.rows[i].cell == Shown(Original(rows[i])))
      && (forall i :: 0 <= i < |rows| && HasInput(rows[i].cell) && Editable(meta, rows[i].apiName) ==>
            out.rows[i].cell == Shown(Current(rows[i].cell)))
      && (InputsOnlyEditable(rows, meta) ==> forall i :: 0 <= i < |rows| ==> !HasInput(out.rows[i].cell))
    ensures Diff(rows) != [] && !response.Saved? ==> out.rows == rows && out.editing
    ensures Diff(rows) != [] && response.Rejected? ==>
      out.toast == "Error saving: " +
        (if response.firstMessage.Some? && response.firstMessage.value != "" then response.firstMessage.value
         else "Unknown error saving.")
    ensures Diff(rows) != [] && response.Failed? ==> out.toast == "Error saving: " + response.message
  {
    if Diff(rows) == [] then SaveOutcome(LeaveEdit(rows, meta), "No fields were changed.", false)
    else
      match response
      case Saved =>
        SavedGrid(rows, meta);
        SaveOutcome(LeaveEdit(Snapshot(rows), meta), "Record updated successfully!", false)
      case Rejected(m) =>
        var text := if m.Some? && m.value != "" then m.value else "Unknown error saving.";
        SaveOutcome(rows, "Error saving: " + text, true)
      case Failed(m) => SaveOutcome(rows, "Error saving: " + m, true)
  }

  /** After a save the grid is back to viewing: each input row shows its saved value, and no input is left. */
  lemma SavedGrid(rows: seq<Row>, meta: MetaMap)
    requires WellFormed(rows)
    ensures
      var out := LeaveEdit(Snapshot(rows), meta);
      && |out| == |rows|
      && WellFormed(out)
      && (forall i :: 0 <= i < |rows| && HasInput(rows[i].cell) ==> Original(out[i]) == Current(rows[i].cell))
      && (forall i :: 0 <= i < |rows| ==> out[i].apiName == rows[i].apiName)
      && (forall i :: 0 <= i < |rows| ==> out[i] == rows[i].(original := out[i].original, cell := out[i].cell))
      && (forall i :: 0 <= i < |rows| && !HasInput(rows[i].cell) ==> out[i].original == rows[i].original)
      && (forall i :: 0 <= i < |rows| && !Editable(meta, rows[i].apiName) ==> out[i].cell == rows[i].cell)
      && (forall i :: 0 <= i < |rows| && !HasInput(rows[i].cell) && Editable(meta, rows[i].apiName) ==>
            out[i].cell == Shown(Original(rows[i])))
      && (forall i :: 0 <= i < |rows| && HasInput(rows[i].cell) && Editable(meta, rows[i].apiName) ==>
            out[i].cell == Shown(Current(rows[i].cell)))
      && (InputsOnlyEditable(rows, meta) ==> forall i :: 0 <= i < |rows| ==> !HasInput(out[i].cell))
  {
    var s := Snapshot(rows);
    var out := LeaveEdit(s, meta);
    forall i | 0 <= i < |rows| && HasInput(rows[i].cell)
      ensures Original(out[i]) == Current(rows[i].cell)
    {
      assert out[i].original == s[i].original;
    }
    forall i | 0 <= i < |rows| && HasInput(rows[i].cell) && Editable(meta, rows[i].apiName)
      ensures out[i].cell == Shown(Current(rows[i].cell))
    {
      assert out[i].original == s[i].original;
    }
  }

  // ---------------------------------------------------------------------------
  // Search

  /** `handleSearch`: a row is displayed when its text contains the term in any letter case. */
  function SearchVisibility(rowTexts: seq<string>, term: string): (shown: seq<bool>)
    ensures |shown| == |rowTexts|
    ensures forall i :: 0 <= i < |rowTexts| ==> (shown[i] <==> MatchesFilter(rowTexts[i], term))
  {
    seq(|rowTexts|, i requires 0 <= i < |rowTexts| => Contains(Lower(rowTexts[i]), Lower(term)))
  }

  /** An empty search term displays every row. */
  lemma EmptySearchShowsAll(rowTexts: seq<string>)
    ensures forall i :: 0 <= i < |rowTexts| ==> SearchVisibility(rowTexts, "")[i]
  {
    forall i | 0 <= i < |rowTexts| ensures MatchesFilter(rowTexts[i], "") {
      EmptyTermMatches(rowTexts[i]);
    }
  }

  // ---------------------------------------------------------------------------
  // A worked example

  const AcmeRecord: Record := [Field("Name", Str("Acme")), Field("Active__c", Bool(true))]

  const AcmeMeta: MetaMap := map[
    "Name" := FieldMeta("Name", "Account Name", "string", true),
    "Active__c" := FieldMeta("Active__c", "Active", "boolean", true)]

  /** The grid for the record `{Name: "Acme", Active__c: true}` in edit mode. */
  function AcmeEditing(): (rows: seq<Row>)
  {
    assert DistinctKeys(AcmeRecord) by {
      assert Keys(AcmeRecord) == ["Name", "Active__c"];
    }
    EnterEdit(BuildRows(AcmeRecord, AcmeMeta, "Account", "acme.my.salesforce.com", map[]), AcmeMeta)
  }

  /** In `AcmeRecord` the field `Name` holds "Acme" and `Active__c` holds true. */
  lemma AcmeValues(k: string)
    requires k in Keys(AcmeRecord)
    ensures k == "Name" || k == "Active__c"
    ensures k == "Name" ==> Lookup(AcmeRecord, k) == Str("Acme")
    ensures k == "Active__c" ==> Lookup(AcmeRecord, k) == Bool(true)
  {
    assert Keys(AcmeRecord) == ["Name", "Active__c"];
  }

  /** In edit mode `Name` has a text input holding "Acme" and `Active__c` a checked checkbox. */
  lemma AcmeInputs(j: int)
    requires 0 <= j < |AcmeEditing()|
    ensures AcmeEditing()[j].apiName == "Name" || AcmeEditing()[j].apiName == "Active__c"
    ensures AcmeEditing()[j].apiName == "Name" ==>
      AcmeEditing()[j].cell == TextInput("Acme") && AcmeEditing()[j].original == Encode(Str("Acme"))
    ensures AcmeEditing()[j].apiName == "Active__c" ==>
      AcmeEditing()[j].cell == CheckboxInput(true) && AcmeEditing()[j].original == Encode(Bool(true))
  {
    var built := BuildRows(AcmeRecord, AcmeMeta, "Account", "acme.my.salesforce.com", map[]);
    assert AcmeEditing() == EnterEdit(built, AcmeMeta);
    var k := built[j].apiName;
    AcmeValues(k);
    var v := Lookup(AcmeRecord, k);
    EncodeIsCanonical(v);
    assert Original(built[j]) == v;
    assert Editable(AcmeMeta, k);
    assert AcmeEditing()[j].cell == CreateInput(AcmeMeta[k].fieldType, v);
    AcmeNameInput();
  }

  /** The text input of `Name` holds "Acme" as it is: it has no line break to drop. */
  lemma AcmeNameInput()
    ensures CreateInput("string", Str("Acme")) == TextInput("Acme")
  {
    var s := "Acme";
    assert forall k :: 0 <= k < |s| ==> !IsLineBreak(s[k]);
  }

  /** The grid after the user types "Acme2" into the input of row `i`. */
  function AcmeEdited(i: int): seq<Row>
    requires 0 <= i < |AcmeEditing()|
  {
    var rows := AcmeEditing();
    rows[i := rows[i].(cell := TypeText(rows[i].cell, "Acme2"))]
  }

  /**
    Editing `Name` to "Acme2" and saving sends exactly `{Name: "Acme2"}`: the untouched
    checkbox of `Active__c` still holds its original `true`.
   */
  lemma AcmeSavePayload(i: int)
    requires 0 <= i < |AcmeEditing()| && AcmeEditing()[i].apiName == "Name"
    ensures Field("Name", Str("Acme2")) in Diff(AcmeEdited(i))
    ensures forall f :: f in Diff(AcmeEdited(i)) ==> f == Field("Name", Str("Acme2"))
  {
    var edited := AcmeEdited(i);
    AcmeEditedRow(i, i);
    forall f | f in Diff(edited) ensures f == Field("Name", Str("Acme2")) {
      var j :| 0 <= j < |edited| && Changed(edited[j]) && f == Entry(edited[j]);
      AcmeEditedRow(i, j);
    }
  }

  /** After typing "Acme2" into `Name`, that row is the only changed one. */
  lemma AcmeEditedRow(i: int, j: int)
    requires 0 <= i < |AcmeEditing()| && AcmeEditing()[i].apiName == "Name"
    requires 0 <= j < |AcmeEditing()|
    ensures j == i ==> Changed(AcmeEdited(i)[j]) && Entry(AcmeEdited(i)[j]) == Field("Name", Str("Acme2"))
    ensures j != i ==> !Changed(AcmeEdited(i)[j])
  {
    AcmeInputs(i);
    AcmeInputs(j);
    TypedRow(AcmeEditing(), i, j);
  }

  /** Typing "Acme2" into the `Name` input of a grid shaped like the example's changes that row alone. */
  lemma TypedRow(rows: seq<Row>, i: int, j: int)
    requires 0 <= i < |rows| && 0 <= j < |rows|
    requires rows[i].apiName == "Name" && rows[i].cell == TextInput("Acme") && rows[i].original == Encode(Str("Acme"))
    requires rows[j].apiName == "Name" ==> rows[j].cell == TextInput("Acme") && rows[j].original == Encode(Str("Acme"))
    requires rows[j].apiName == "Active__c" ==>
      rows[j].cell == CheckboxInput(true) && rows[j].original == Encode(Bool(true))
    requires rows[j].apiName == "Name" || rows[j].apiName == "Active__c"
    ensures
      var edited := rows[i := rows[i].(cell := TypeText(rows[i].cell, "Acme2"))];
      && (j == i ==> Changed(edited[j]) && Entry(edited[j]) == Field("Name", Str("Acme2")))
      && (j != i ==> !Changed(edited[j]))
  {
    EncodeInjective(Str("Acme2"), Str("Acme"));
  }
}

=== FILE: json.dfy ===
/**
  JSON values as the record inspector handles them, and `JSON.stringify` on them.
  The inspector keeps each field's original value as its JSON text and decides
  whether a field changed by comparing JSON texts; `Parse` reads that canonical text
  back, and the round trip `Parse(Encode(v)) == Some(v)` makes comparing texts the
  same as comparing values.
 */
module Json {
  import opened Wrappers
  import opened Strings
  import Decimal

  /** Record field values: `null`, booleans, integers, strings and nested objects. */
  datatype Value = Null | Bool(b: bool) | Int(i: int) | Str(s: string) | Obj(fields: seq<Field>)

  datatype Field = Field(key: string, val: Value)

  // ---------------------------------------------------------------------------
  // JSON.stringify

  function HexLower(d: int): char
    requires 0 <= d < 16
  {
    "0123456789abcdef"[d]
  }

  /** How `JSON.stringify` writes one character of a string. */
  function EscapeChar(c: char): (r: string)
    ensures |r| >= 1
    ensures r[0] == '\\' <==> (c == '"' || c == '\\' || c as int < 0x20)
    ensures r[0] != '\\' ==> r == [c]
  {
    if c == '"' then "\\\""
    else if c == '\\' then "\\\\"
    else if c == '\U{8}' then "\\b"
    else if c == '\t' then "\\t"
    else if c == '\n' then "\\n"
    else if c == '\U{C}' then "\\f"
    else if c == '\r' then "\\r"
    else if c as int < 0x20 then "\\u00" + [HexLower(c as int / 16), HexLower(c as int % 16)]
    else [c]
  }

  function QuoteBody(s: string): string {
    if |s| == 0 then "" else EscapeChar(s[0]) + QuoteBody(s[1..])
  }

  function Quote(s: string): string {
    "\"" + QuoteBody(s) + "\""
  }

  /** `JSON.stringify(v)`: no whitespace, object members in their insertion order. */
  function Encode(v: Value): string
    decreases v, 1
  {
    match v
    case Null => "null"
    case Bool(b) => if b then "true" else "false"
    case Int(i) => Decimal.IntToString(i)
    case Str(s) => Quote(s)
    case Obj(fs) => "{" + Members(fs) + "}"
  }

  function Members(fs: seq<Field>): string
    decreases fs, 0
  {
    if |fs| == 0 then ""
    else
      Quote(fs[0].key) + ":" + Encode(fs[0].val) + (if |fs| == 1 then "" else "," + Members(fs[1..]))
  }

  // ---------------------------------------------------------------------------
  // Reading the canonical text back

  function HexValue(c: char): Option<nat> {
    if '0' <= c <= '9' then Some(c as int - '0' as int)
    else if 'a' <= c <= 'f' then Some(c as int - 'a' as int + 10)
    else if 'A' <= c <= 'F' then Some(c as int - 'A' as int + 10)
    else None
  }

  /** The character written by the escape `s[0..2]` or `s[0..6]`, and the escape's length. */
  function Unescape(s: string): Option<(char, nat)>
    requires |s| >= 2 && s[0] == '\\'
  {
    var e := s[1];
    if e == '"' then Some(('"', 2))
    else if e == '\\' then Some(('\\', 2))
    else if e == '/' then Some(('/', 2))
    else if e == 'b' then Some(('\U{8}', 2))
    else if e == 't' then Some(('\t', 2))
    else if e == 'n' then Some(('\n', 2))
    else if e == 'f' then Some(('\U{C}', 2))
    else if e == 'r' then Some(('\r', 2))
    else if e == 'u' && |s| >= 6 then
      match (HexValue(s[2]), HexValue(s[3]), HexValue(s[4]), HexValue(s[5]))
      case (Some(a), Some(b), Some(c), Some(d)) =>
        if a < 16 && b < 16 && c < 16 && d < 16 then
          var u := ((a * 16 + b) * 16 + c) * 16 + d;
          if 0xD800 <= u < 0xE000 then None else Some((u as char, 6))
        else None
      case _ => None
    else None
  }

  /** The contents of a string literal whose opening quote has been read, and what follows it. */
  function ParseStringBody(s: string): (r: Option<(string, string)>)
    ensures r.Some? ==> |r.value.1| < |s|
    decreases |s|
  {
    if |s| == 0 then None
    else if s[0] == '"' then Some(("", s[1..]))
    else if s[0] == '\\' then
      if |s| < 2 then None
      else match Unescape(s)
        case None => None
        case Some((c, n)) =>
          if n == 0 || n > |s| then None
          else match ParseStringBody(s[n..])
            case None => None
            case Some((t, rest)) => Some(([c] + t, rest))
    else if s[0] as int < 0x20 then None
    else match ParseStringBody(s[1..])
      case None => None
      case Some((t, rest)) => Some(([s[0]] + t, rest))
  }

  /** Length of the run of decimal digits at the start of `s`. */
  function DigitRun(s: string): (n: nat)
    ensures n <= |s|
    ensures Decimal.AllDigits(s[..n])
    ensures n < |s| ==> !Decimal.IsDigit(s[n])
  {
    if |s| == 0 || !Decimal.IsDigit(s[0]) then 0
    else
      var n := 1 + DigitRun(s[1..]);
      assert s[..n] == [s[0]] + s[1..][..n - 1];
      n
  }

  function ParseNumber(s: string): (r: Option<(Value, string)>)
    ensures r.Some? ==> |r.value.1| < |s|
  {
    var sign := if |s| > 0 && s[0] == '-' then 1 else 0;
    var n := DigitRun(s[sign..]);
    if n == 0 then None
    else
      var magnitude: int := Decimal.DigitsValue(s[sign..][..n]);
      Some((Int(if sign == 1 then -magnitude else magnitude), s[sign + n..]))
  }

  function ParseValue(s: string): (r: Option<(Value, string)>)
    ensures r.Some? ==> |r.value.1| < |s|
    decreases |s|, 1
  {
    if StartsWith(s, "null") then Some((Null, s[4..]))
    else if StartsWith(s, "true") then Some((Bool(true), s[4..]))
    else if StartsWith(s, "false") then Some((Bool(false), s[5..]))
    else if |s| > 0 && s[0] == '"' then
      match ParseStringBody(s[1..])
      case None => None
      case Some((t, rest)) => Some((Str(t), rest))
    else if |s| > 0 && s[0] == '{' then
      if |s| > 1 && s[1] == '}' then Some((Obj([]), s[2..]))
      else
        match ParseMembers(s[1..])
        case None => None
        case Some((fs, rest)) => Some((Obj(fs), rest))
    else ParseNumber(s)
  }

  /** One or more `"key":value` members separated by commas, then the closing brace. */
  function ParseMembers(s: string): (r: Option<(seq<Field>, string)>)
    ensures r.Some? ==> |r.value.1| < |s|
    decreases |s|, 0
  {
    if |s| == 0 || s[0] != '"' then None
    else
      match ParseStringBody(s[1..])
      case None => None
      case Some((k, afterKey)) =>
        if |afterKey| == 0 || afterKey[0] != ':' then None
        else
          match ParseValue(afterKey[1..])
          case None => None
          case Some((v, afterValue)) =>
            if |afterValue| == 0 then None
            else if afterValue[0] == '}' then Some(([Field(k, v)], afterValue[1..]))
            else if afterValue[0] == ',' then
              match ParseMembers(afterValue[1..])
              case None => None
              case Some((more, rest)) => Some(([Field(k, v)] + more, rest))
            else None
  }

  /** `JSON.parse` on the text `JSON.stringify` writes. */
  function Parse(s: string): Option<Value> {
    match ParseValue(s)
    case Some((v, rest)) => if |rest| == 0 then Some(v) else None
    case None => None
  }

  // ---------------------------------------------------------------------------
  // Round trip

  /** What may follow an encoded value inside an enclosing text. */
  predicate CanFollow(rest: string) {
    |rest| == 0 || rest[0] == ',' || rest[0] == '}'
  }

  lemma HexLowerValue(d: int)
    requires 0 <= d < 16
    ensures HexValue(HexLower(d)) == Some(d)
  {
  }

  lemma {:induction false} UnescapeEscapeChar(c: char, rest: string)
    requires EscapeChar(c)[0] == '\\'
    ensures |EscapeChar(c) + rest| >= 2
    ensures Unescape(EscapeChar(c) + rest) == Some((c, |EscapeChar(c)|))
  {
    var e := EscapeChar(c);
    var s := e + rest;
    if c as int < 0x20 && c != '\U{8}' && c != '\t' && c != '\n' && c != '\U{C}' && c != '\r' {
      var hi, lo := c as int / 16, c as int % 16;
      HexLowerValue(hi);
      HexLowerValue(lo);
      assert s[1] == 'u' && s[2] == '0' && s[3] == '0' && s[4] == HexLower(hi) && s[5] == HexLower(lo);
      assert ((0 * 16 + 0) * 16 + hi) * 16 + lo == c as int;
    }
  }

  lemma {:induction false} ParseQuoteBody(s: string, rest: string)
    ensures ParseStringBody(QuoteBody(s) + "\"" + rest) == Some((s, rest))
  {
    if |s| == 0 {
      assert QuoteBody(s) + "\"" + rest == "\"" + rest;
    } else {
      var e := EscapeChar(s[0]);
      var tail := QuoteBody(s[1..]) + "\"" + rest;
      var t := QuoteBody(s) + "\"" + rest;
      assert t == e + tail;
      ParseQuoteBody(s[1..], rest);
      if e[0] == '\\' {
        UnescapeEscapeChar(s[0], tail);
        assert t[|e|..] == tail;
      } else {
        assert t[1..] == tail;
      }
      assert [s[0]] + s[1..] == s;
    }
  }

  lemma NumberRoundTrip(n: int, rest: string)
    requires |rest| == 0 || !Decimal.IsDigit(rest[0])
    ensures ParseNumber(Decimal.IntToString(n) + rest) == Some((Int(n), rest))
  {
    var text := Decimal.IntToString(n);
    var s := text + rest;
    var sign := if n < 0 then 1 else 0;
    var digits := text[sign..];
    assert Decimal.AllDigits(digits);
    assert s[sign..] == digits + rest;
    DigitRunOf(digits, rest);
    assert s[sign..][..|digits|] == digits;
    Decimal.IntRoundTrip(n);
    assert s[sign + |digits|..] == rest;
  }

  lemma {:induction false} DigitRunOf(digits: string, rest: string)
    requires Decimal.AllDigits(digits)
    requires |rest| == 0 || !Decimal.IsDigit(rest[0])
    ensures DigitRun(digits + rest) == |digits|
  {
    if |digits| > 0 {
      assert (digits + rest)[1..] == digits[1..] + rest;
      DigitRunOf(digits[1..], rest);
    } else {
      assert digits + rest == rest;
    }
  }

  /** One member step of `ParseMembers`, with the pieces already read. */
  lemma ParseMembersStep(s: string, k: string, afterKey: string, v: Value, afterValue: string)
    requires |s| > 0 && s[0] == '"'
    requires ParseStringBody(s[1..]) == Some((k, afterKey))
    requires |afterKey| > 0 && afterKey[0] == ':'
    requires ParseValue(afterKey[1..]) == Some((v, afterValue))
    requires |afterValue| > 0 && (afterValue[0] == '}' || afterValue[0] == ',')
    ensures afterValue[0] == '}' ==> ParseMembers(s) == Some(([Field(k, v)], afterValue[1..]))
    ensures afterValue[0] == ',' ==>
      ParseMembers(s) ==
        match ParseMembers(afterValue[1..])
        case None => None
        case Some((more, rest)) => Some(([Field(k, v)] + more, rest))
  {
  }

  lemma ParseStrEncode(t: string, rest: string)
    ensures ParseValue(Encode(Str(t)) + rest) == Some((Str(t), rest))
  {
    var s := Encode(Str(t)) + rest;
    assert Encode(Str(t)) == "\"" + QuoteBody(t) + "\"";
    QuotePieces(QuoteBody(t), rest);
    ParseQuoteBody(t, rest);
    ParseValueAtQuote(s);
  }

  lemma QuotePieces(q: string, rest: string)
    ensures ("\"" + q + "\"" + rest)[0] == '"'
    ensures ("\"" + q + "\"" + rest)[1..] == q + "\"" + rest
  {
  }

  /** At a `"` the value parser reads a string. */
  lemma ParseValueAtQuote(s: string)
    requires |s| > 0 && s[0] == '"'
    ensures ParseValue(s) ==
      match ParseStringBody(s[1..])
      case None => None
      case Some((t, rest)) => Some((Str(t), rest))
  {
    assert !StartsWith(s, "null") && !StartsWith(s, "true") && !StartsWith(s, "false");
  }

  lemma ParseIntEncode(i: int, rest: string)
    requires CanFollow(rest)
    ensures ParseValue(Encode(Int(i)) + rest) == Some((Int(i), rest))
  {
    var s := Encode(Int(i)) + rest;
    var text := Decimal.IntToString(i);
    assert s[0] == text[0];
    assert text[0] == '-' || Decimal.IsDigit(text[0]);
    assert !StartsWith(s, "null") && !StartsWith(s, "true") && !StartsWith(s, "false");
    NumberRoundTrip(i, rest);
  }

  lemma ParseLiteralEncode(v: Value, rest: string)
    requires v.Null? || v.Bool?
    ensures ParseValue(Encode(v) + rest) == Some((v, rest))
  {
    var s := Encode(v) + rest;
    if v.Null? {
      assert s[..4] == "null" && s[4..] == rest;
    } else if v.b {
      assert s[..4] == "true" && s[4..] == rest;
    } else {
      assert s[..4] == "fals";
      assert s[..5] == "false" && s[5..] == rest;
    }
  }

  lemma ParseEmptyObjEncode(rest: string)
    ensures ParseValue(Encode(Obj([])) + rest) == Some((Obj([]), rest))
  {
    var s := Encode(Obj([])) + rest;
    assert s == "{}" + rest;
    assert s[0] == '{' && s[1] == '}' && s[2..] == rest;
    NotLiteral(s);
  }

  lemma DropOpening(m: string, rest: string)
    ensures ("{" + m + "}" + rest)[0] == '{'
    ensures ("{" + m + "}" + rest)[1..] == m + "}" + rest
  {
  }

  /** A text opening with none of `n`, `t`, `f` is not read as a literal. */
  lemma NotLiteral(s: string)
    requires |s| > 0 && s[0] != 'n' && s[0] != 't' && s[0] != 'f'
    ensures !StartsWith(s, "null") && !StartsWith(s, "true") && !StartsWith(s, "false")
  {
    if |s| >= 4 {
      assert s[..4][0] == s[0];
    }
    if |s| >= 5 {
      assert s[..5][0] == s[0];
    }
  }

  lemma ParseObjEncode(fs: seq<Field>, rest: string)
    requires |fs| > 0
    requires ParseMembers(Members(fs) + "}" + rest) == Some((fs, rest))
    ensures ParseValue(Encode(Obj(fs)) + rest) == Some((Obj(fs), rest))
  {
    var m := Members(fs);
    assert Encode(Obj(fs)) == "{" + m + "}";
    DropOpening(m, rest);
    var s := Encode(Obj(fs)) + rest;
    assert m[0] == '"';
    NotLiteral(s);
  }

  lemma {:induction false} ParseEncodeFollowed(v: Value, rest: string)
    requires CanFollow(rest)
    ensures ParseValue(Encode(v) + rest) == Some((v, rest))
    decreases v, 1
  {
    match v
    case Null => ParseLiteralEncode(v, rest);
    case Bool(_) => ParseLiteralEncode(v, rest);
    case Int(i) => ParseIntEncode(i, rest);
    case Str(t) => ParseStrEncode(t, rest);
    case Obj(fs) =>
      if |fs| == 0 {
        ParseEmptyObjEncode(rest);
      } else {
        ParseMembersEncode(fs, rest);
        ParseObjEncode(fs, rest);
      }
  }

  /** How the text of a member list is cut up while it is read. */
  lemma MemberPieces(q: string, e: string, more: string, rest: string)
    ensures ("\"" + q + "\"" + ":" + e + more + "}" + rest)[0] == '"'
    ensures ("\"" + q + "\"" + ":" + e + more + "}" + rest)[1..] == q + "\"" + (":" + e + (more + "}" + rest))
    ensures (":" + e + (more + "}" + rest))[0] == ':'
    ensures (":" + e + (more + "}" + rest))[1..] == e + (more + "}" + rest)
  {
  }

  lemma ClosingPieces(m: string, rest: string)
    ensures ("" + "}" + rest)[0] == '}' && ("" + "}" + rest)[1..] == rest
    ensures ("," + m + "}" + rest)[0] == ',' && ("," + m + "}" + rest)[1..] == m + "}" + rest
  {
  }

  lemma MembersUnfold(fs: seq<Field>)
    requires |fs| > 0
    ensures Members(fs) == "\"" + QuoteBody(fs[0].key) + "\"" + ":" + Encode(fs[0].val)
                           + (if |fs| == 1 then "" else "," + Members(fs[1..]))
  {
  }

  lemma {:induction false} ParseMembersEncode(fs: seq<Field>, rest: string)
    requires |fs| > 0
    ensures ParseMembers(Members(fs) + "}" + rest) == Some((fs, rest))
    decreases fs, 0
  {
    var f := fs[0];
    var more := if |fs| == 1 then "" else "," + Members(fs[1..]);
    var afterValue := more + "}" + rest;
    var afterKey := ":" + Encode(f.val) + afterValue;
    MembersUnfold(fs);
    MemberPieces(QuoteBody(f.key), Encode(f.val), more, rest);
    var s := Members(fs) + "}" + rest;
    ParseQuoteBody(f.key, afterKey);
    ParseEncodeFollowed(f.val, afterValue);
    ParseMembersStep(s, f.key, afterKey, f.val, afterValue);
    if |fs| == 1 {
      ClosingPieces("", rest);
      ConsSplit(fs);
    } else {
      ClosingPieces(Members(fs[1..]), rest);
      ParseMembersEncode(fs[1..], rest);
      ConsSplit(fs);
    }
  }

  lemma ConsSplit(fs: seq<Field>)
    requires |fs| > 0
    ensures [fs[0]] + fs[1..] == fs
    ensures |fs| == 1 ==> [fs[0]] == fs
  {
  }

  /** `JSON.parse(JSON.stringify(v))` gives back `v`. */
  lemma ParseEncode(v: Value)
    ensures Parse(Encode(v)) == Some(v)
  {
    ParseEncodeFollowed(v, "");
    assert Encode(v) + "" == Encode(v);
  }

  /** Two values have the same JSON text only if they are the same value. */
  lemma EncodeInjective(v: Value, w: Value)
    ensures Encode(v) == Encode(w) <==> v == w
  {
    ParseEncode(v);
    ParseEncode(w);
  }
}

=== FILE: record_url.dfy ===
/**
  `getRecordDetailsFromUrl`: finding the object name and record id of a Lightning
  record page in its URL, by the pattern
  `/lightning/r/<name>/<id>/view` where `<name>` is a non-empty run of ASCII letters,
  digits and `_`, and `<id>` is 15 to 18 ASCII letters and digits.

  The regular expression is modelled by a declarative predicate, `IsMatch`, and a
  matcher that scans left to right the way the regular-expression engine does.
 */
module RecordUrl {
  import opened Wrappers
  import opened Strings

  datatype RecordRef = RecordRef(sobjectName: string, recordId: string)

  const Prefix: string := "/lightning/r/"
  const Suffix: string := "/view"
  const MinIdLength: nat := 15
  const MaxIdLength: nat := 18

  predicate IsAlnum(c: char) {
    ('a' <= c <= 'z') || ('A' <= c <= 'Z') || ('0' <= c <= '9')
  }

  /** The class `[a-zA-Z0-9_]`. */
  predicate IsWordChar(c: char) {
    IsAlnum(c) || c == '_'
  }

  predicate AllWordChars(s: string) {
    forall k :: 0 <= k < |s| ==> IsWordChar(s[k])
  }

  predicate AllAlnum(s: string) {
    forall k :: 0 <= k < |s| ==> IsAlnum(s[k])
  }

  /** A name the first group accepts. */
  predicate IsObjectName(s: string) {
    |s| >= 1 && AllWordChars(s)
  }

  /** An id the second group accepts. */
  predicate IsRecordId(s: string) {
    MinIdLength <= |s| <= MaxIdLength && AllAlnum(s)
  }

  /** The text of a match for `r`. */
  function MatchText(r: RecordRef): string {
    Prefix + r.sobjectName + "/" + r.recordId + Suffix
  }

  /** The pattern matches `url` at index `i`, capturing `r`. */
  predicate IsMatch(url: string, i: int, r: RecordRef) {
    IsObjectName(r.sobjectName) && IsRecordId(r.recordId) && OccursAt(url, MatchText(r), i)
  }

  // ---------------------------------------------------------------------------
  // The matcher

  /**
    The attempt at index `i`. Neither group can give back characters to let the rest
    match: `/` is in neither class, so the name is the whole run of word characters
    after the prefix and the id the whole run of letters and digits after it.
   */
  function MatchAt(url: string, i: nat): (r: Option<RecordRef>)
    requires i <= |url|
  {
    if !OccursAt(url, Prefix, i) then None
    else
      var a := i + |Prefix|;
      var b := RunEnd(url, a, IsWordChar);
      if b == a || b == |url| || url[b] != '/' then None
      else
        var c := RunEnd(url, b + 1, IsAlnum);
        if c - (b + 1) < MinIdLength || c - (b + 1) > MaxIdLength || !OccursAt(url, Suffix, c) then None
        else Some(RecordRef(url[a..b], url[b + 1..c]))
  }

  /** Reading a match back in pieces: prefix, name, slash, id, suffix. */
  lemma MatchTextPieces(url: string, i: int, r: RecordRef)
    requires OccursAt(url, MatchText(r), i)
    ensures
      var a := i + |Prefix|;
      var b := a + |r.sobjectName|;
      var c := b + 1 + |r.recordId|;
      && OccursAt(url, Prefix, i)
      && url[a..b] == r.sobjectName
      && url[b] == '/'
      && url[b + 1..c] == r.recordId
      && OccursAt(url, Suffix, c)
  {
    var a := i + |Prefix|;
    var b := a + |r.sobjectName|;
    var c := b + 1 + |r.recordId|;
    var t := MatchText(r);
    assert url[i..i + |t|] == t;
    forall k | 0 <= k < |t| ensures url[i + k] == t[k] {
      assert url[i..i + |t|][k] == url[i + k];
    }
    forall k | 0 <= k < |Prefix| ensures url[i + k] == Prefix[k] {
      assert t[k] == Prefix[k];
    }
    forall k | 0 <= k < |r.sobjectName| ensures url[a + k] == r.sobjectName[k] {
      assert t[|Prefix| + k] == r.sobjectName[k];
    }
    assert t[b - i] == '/';
    forall k | 0 <= k < |r.recordId| ensures url[b + 1 + k] == r.recordId[k] {
      assert t[b + 1 - i + k] == r.recordId[k];
    }
    forall k | 0 <= k < |Suffix| ensures url[c + k] == Suffix[k] {
      assert t[c - i + k] == Suffix[k];
    }
  }

  lemma MatchTextFromPieces(url: string, i: nat, r: RecordRef)
    requires
      var a := i + |Prefix|;
      var b := a + |r.sobjectName|;
      var c := b + 1 + |r.recordId|;
      && OccursAt(url, Prefix, i)
      && OccursAt(url, Suffix, c)
      && url[a..b] == r.sobjectName
      && url[b] == '/'
      && url[b + 1..c] == r.recordId
    ensures OccursAt(url, MatchText(r), i)
  {
    var a := i + |Prefix|;
    var b := a + |r.sobjectName|;
    var c := b + 1 + |r.recordId|;
    assert OccursAt(url, r.sobjectName, a);
    OccursAtConcat(url, Prefix, r.sobjectName, i);
    assert OccursAt(url, "/", b) by { assert url[b..b + 1] == [url[b]]; }
    OccursAtConcat(url, Prefix + r.sobjectName, "/", i);
    assert OccursAt(url, r.recordId, b + 1);
    OccursAtConcat(url, Prefix + r.sobjectName + "/", r.recordId, i);
    OccursAtConcat(url, Prefix + r.sobjectName + "/" + r.recordId, Suffix, i);
  }

  /** What the attempt at `i` captures is a match there. */
  lemma MatchAtSound(url: string, i: nat)
    requires i <= |url|
    ensures MatchAt(url, i).Some? ==> IsMatch(url, i, MatchAt(url, i).value)
  {
    var m := MatchAt(url, i);
    if m.Some? {
      var r := m.value;
      assert forall k :: 0 <= k < |r.sobjectName| ==> r.sobjectName[k] == url[i + |Prefix| + k];
      assert forall k :: 0 <= k < |r.recordId| ==> r.recordId[k] == url[i + |Prefix| + |r.sobjectName| + 1 + k];
      MatchTextFromPieces(url, i, r);
    }
  }

  /** Every match at `i` is the one the attempt at `i` captures. */
  lemma MatchAtComplete(url: string, i: nat, r: RecordRef)
    requires IsMatch(url, i, r)
    ensures MatchAt(url, i) == Some(r)
  {
    MatchTextPieces(url, i, r);
    var a := i + |Prefix|;
    var b := a + |r.sobjectName|;
    var c := b + 1 + |r.recordId|;
    forall m | a <= m < b
      ensures IsWordChar(url[m])
    {
      assert url[m] == r.sobjectName[m - a];
    }
    RunEndAt(url, a, b, IsWordChar);
    forall m | b + 1 <= m < c
      ensures IsAlnum(url[m])
    {
      assert url[m] == r.recordId[m - (b + 1)];
    }
    assert url[c] == Suffix[0];
    RunEndAt(url, b + 1, c, IsAlnum);
  }

  /** At any index the pattern matches in at most one way. */
  lemma MatchIsUnique(url: string, i: nat, r: RecordRef, r': RecordRef)
    requires IsMatch(url, i, r) && IsMatch(url, i, r')
    ensures r == r'
  {
    MatchAtComplete(url, i, r);
    MatchAtComplete(url, i, r');
  }

  /** `r` matches at `k`, and nothing matches from `i` up to `k`. */
  ghost predicate LeftmostFrom(url: string, i: int, k: int, r: RecordRef) {
    && i <= k <= |url|
    && IsMatch(url, k, r)
    && forall j, r' :: i <= j < k ==> !IsMatch(url, j, r')
  }

  /** Nothing matches at or after `i`. */
  ghost predicate NoneFrom(url: string, i: int) {
    forall k, r' :: i <= k ==> !IsMatch(url, k, r')
  }

  /** The leftmost match at or after `i`. */
  function FirstMatch(url: string, i: nat): (r: Option<RecordRef>)
    requires i <= |url|
    ensures r.Some? ==> exists k :: LeftmostFrom(url, i, k, r.value)
    ensures r.None? ==> NoneFrom(url, i)
    decreases |url| - i
  {
    if MatchAt(url, i).Some? then
      MatchAtSound(url, i);
      assert LeftmostFrom(url, i, i, MatchAt(url, i).value);
      MatchAt(url, i)
    else
      NoMatchAt(url, i);
      if i == |url| then None
      else
        var r := FirstMatch(url, i + 1);
        if r.Some? then
          ghost var k :| LeftmostFrom(url, i + 1, k, r.value);
          ExtendLeftmost(url, i, k, r.value);
          r
        else
          ExtendNone(url, i);
          r
  }

  /** When the attempt at `i` fails no match starts there, and at the end of the URL none starts at or after it. */
  lemma NoMatchAt(url: string, i: nat)
    requires i <= |url| && MatchAt(url, i).None?
    ensures forall r' :: !IsMatch(url, i, r')
    ensures i == |url| ==> NoneFrom(url, i)
  {
    forall r' | IsMatch(url, i, r') ensures false {
      MatchAtComplete(url, i, r');
    }
  }

  lemma ExtendLeftmost(url: string, i: int, k: int, r: RecordRef)
    requires forall r' :: !IsMatch(url, i, r')
    requires LeftmostFrom(url, i + 1, k, r)
    ensures LeftmostFrom(url, i, k, r)
  {
  }

  lemma ExtendNone(url: string, i: int)
    requires forall r' :: !IsMatch(url, i, r')
    requires NoneFrom(url, i + 1)
    ensures NoneFrom(url, i)
  {
  }

  /**
    `getRecordDetailsFromUrl`: the captures of the leftmost match in the page URL, or
    nothing when the URL holds no match. (The check that the match array has three
    entries always holds for a pattern with two groups.)
   */
  function RecordDetails(url: string): (r: Option<RecordRef>)
    ensures r.Some? ==>
      exists i :: 0 <= i <= |url| && IsMatch(url, i, r.value) &&
        forall j, r' :: 0 <= j < i ==> !IsMatch(url, j, r')
    ensures r.None? <==> forall i, r' :: !IsMatch(url, i, r')
  {
    FirstMatch(url, 0)
  }

  /** A match starts with `/l`. */
  lemma MatchStart(url: string, j: int, r: RecordRef)
    requires IsMatch(url, j, r)
    ensures j + 1 < |url| && url[j] == '/' && url[j + 1] == 'l'
  {
    MatchTextPieces(url, j, r);
    assert url[j..j + |Prefix|] == Prefix;
  }

  /**
    The record page URL of the comment in background.js,
    `https://acme.lightning.force.com/lightning/r/Account/0018b00002ABCDEFAA/view`,
    built from its parts.
   */
  const ExampleUrl: string := "https:" + "//" + "acme.lightning.force.com" + MatchText(ExampleRecord)
  const ExampleRecord: RecordRef := RecordRef("Account", "0018b00002ABCDEFAA")

  lemma ExampleMatchesAt32()
    ensures IsMatch(ExampleUrl, 32, ExampleRecord)
  {
    var t := MatchText(ExampleRecord);
    assert ExampleUrl[32..32 + |t|] == t;
    assert IsRecordId(ExampleRecord.recordId);
  }

  lemma ExampleNoEarlierMatch()
    ensures forall j, r' :: 0 <= j < 32 ==> !IsMatch(ExampleUrl, j, r')
  {
    forall j, r' | 0 <= j < 32 && IsMatch(ExampleUrl, j, r')
      ensures false
    {
      MatchStart(ExampleUrl, j, r');
    }
  }

  /** The URL of the comment in background.js yields its object name and id. */
  lemma AccountPageExample()
    ensures RecordDetails(ExampleUrl) == Some(RecordRef("Account", "0018b00002ABCDEFAA"))
  {
    ExampleMatchesAt32();
    ExampleNoEarlierMatch();
    var d := RecordDetails(ExampleUrl);
    var i :| 0 <= i <= |ExampleUrl| && IsMatch(ExampleUrl, i, d.value) &&
      forall j, r' :: 0 <= j < i ==> !IsMatch(ExampleUrl, j, r');
    assert i == 32;
    MatchIsUnique(ExampleUrl, 32, ExampleRecord, d.value);
  }
}

=== FILE: session_resolver.dfy ===
/**
  The background worker's `getSfHost` and `getSession` message handlers with the
  browser's cookie and tab lookups replaced by their results.

  `getSfHost` finds the session cookie of the current page, takes the organization id
  from it, and asks for the `sid` cookies of six platform domains at once. The six
  answers come back in some order, the ARRIVAL order; the handler replies with the
  first qualifying cookie's domain in that order, or with the current host once all
  six answers held nothing. The model takes the arrival order as a parameter.
 */
module SessionResolver {
  import opened Wrappers
  import opened Strings
  import opened HostClassifier

  /** A `sid` cookie as the cookie lookups return it. */
  datatype Cookie = Cookie(value: string, domain: string)

  /** The platform's cookie domains, in the order the lookups are issued. */
  const OrderedDomains: seq<string> :=
    ["salesforce.com", "cloudforce.com", "salesforce.mil", "cloudforce.mil", "sfcrmproducts.cn", "force.com"]

  /** The public help site, whose cookies never count as a session. */
  const HelpDomain: string := "help.salesforce.com"

  /**
    The organization id: the part of the cookie value before the first `!`, or the
    whole value when there is none (`value.split("!")[0]`).
   */
  function OrgId(sid: string): (r: string)
    ensures '!' !in r
    ensures StartsWith(sid, r)
    ensures '!' in sid ==> sid == r + "!" + DropThrough(sid, '!')
    ensures '!' !in sid ==> r == sid
  {
    TakeUntil(sid, '!')
  }

  /** A cookie qualifies when its value belongs to the organization and it is not the help site's. */
  predicate Qualifies(c: Cookie, orgId: string) {
    StartsWith(c.value, orgId + "!") && c.domain != HelpDomain
  }

  /** `cookies.find(...)`: the first qualifying cookie of a list. */
  function FirstQualifying(cookies: seq<Cookie>, orgId: string): (r: Option<Cookie>)
    ensures r.None? <==> forall i :: 0 <= i < |cookies| ==> !Qualifies(cookies[i], orgId)
    ensures r.Some? ==>
      exists i :: 0 <= i < |cookies| && cookies[i] == r.value && Qualifies(r.value, orgId) &&
        forall j :: 0 <= j < i ==> !Qualifies(cookies[j], orgId)
  {
    if |cookies| == 0 then None
    else if Qualifies(cookies[0], orgId) then Some(cookies[0])
    else
      var r := FirstQualifying(cookies[1..], orgId);
      if r.Some? then
        ghost var i :| 0 <= i < |cookies[1..]| && cookies[1..][i] == r.value && Qualifies(r.value, orgId)
          && forall j :: 0 <= j < i ==> !Qualifies(cookies[1..][j], orgId);
        assert cookies[i + 1] == r.value;
        r
      else r
  }

  lemma {:induction false} FirstQualifyingConcat(a: seq<Cookie>, b: seq<Cookie>, orgId: string)
    ensures FirstQualifying(a + b, orgId) ==
      if FirstQualifying(a, orgId).Some? then FirstQualifying(a, orgId) else FirstQualifying(b, orgId)
  {
    if |a| > 0 {
      assert (a + b)[0] == a[0];
      assert (a + b)[1..] == a[1..] + b;
      FirstQualifyingConcat(a[1..], b, orgId);
    } else {
      assert a + b == b;
    }
  }

  /** All cookies of a sequence of lookup answers, in order. */
  function Flatten(batches: seq<seq<Cookie>>): seq<Cookie> {
    if |batches| == 0 then [] else batches[0] + Flatten(batches[1..])
  }

  // ---------------------------------------------------------------------------
  // The fan-in

  /** The handler's shared counters and the replies it has sent so far. */
  datatype FanIn = FanIn(checked: nat, found: bool, replies: seq<string>)

  /** One lookup callback: count it, and reply unless a reply was already sent. */
  function OnLookup(st: FanIn, cookies: seq<Cookie>, orgId: string, current: string): FanIn {
    var checked := st.checked + 1;
    if st.found then FanIn(checked, true, st.replies)
    else
      match FirstQualifying(cookies, orgId)
      case Some(c) => FanIn(checked, true, st.replies + [c.domain])
      case None =>
        if checked == |OrderedDomains| then FanIn(checked, false, st.replies + [current])
        else FanIn(checked, false, st.replies)
  }

  /** The callbacks that have run, in arrival order. */
  function Run(st: FanIn, batches: seq<seq<Cookie>>, orgId: string, current: string): FanIn
    decreases |batches|
  {
    if |batches| == 0 then st
    else Run(OnLookup(st, batches[0], orgId, current), batches[1..], orgId, current)
  }

  /** The replies sent after the callbacks in `batches` have run, from the initial counters. */
  function FanInReplies(batches: seq<seq<Cookie>>, orgId: string, current: string): seq<string> {
    Run(FanIn(0, false, []), batches, orgId, current).replies
  }

  /** Once a reply has been sent, later callbacks send nothing. */
  lemma {:induction false} StaleLookupsIgnored(st: FanIn, batches: seq<seq<Cookie>>, orgId: string, current: string)
    requires st.found
    ensures Run(st, batches, orgId, current).replies == st.replies
    decreases |batches|
  {
    if |batches| > 0 {
      StaleLookupsIgnored(OnLookup(st, batches[0], orgId, current), batches[1..], orgId, current);
    }
  }

  lemma {:induction false} RunUnfound(k: nat, batches: seq<seq<Cookie>>, orgId: string, current: string)
    requires k + |batches| <= |OrderedDomains|
    ensures Run(FanIn(k, false, []), batches, orgId, current).replies ==
      match FirstQualifying(Flatten(batches), orgId)
      case Some(c) => [c.domain]
      case None => if |batches| > 0 && k + |batches| == |OrderedDomains| then [current] else []
    decreases |batches|
  {
    if |batches| > 0 {
      var st := OnLookup(FanIn(k, false, []), batches[0], orgId, current);
      FirstQualifyingConcat(batches[0], Flatten(batches[1..]), orgId);
      match FirstQualifying(batches[0], orgId)
      case Some(c) =>
        StaleLookupsIgnored(st, batches[1..], orgId, current);
      case None =>
        if k + 1 == |OrderedDomains| {
          assert |batches[1..]| == 0;
        } else {
          RunUnfound(k + 1, batches[1..], orgId, current);
        }
    }
  }

  /**
    The outcome of the fan-in for callbacks arriving in the order of `batches` (at
    most six of them): the domain of the first qualifying cookie in arrival order;
    otherwise the current host once all six have arrived; otherwise nothing yet.
   */
  lemma FanInOutcome(batches: seq<seq<Cookie>>, orgId: string, current: string)
    requires |batches| <= |OrderedDomains|
    ensures FanInReplies(batches, orgId, current) ==
      match FirstQualifying(Flatten(batches), orgId)
      case Some(c) => [c.domain]
      case None => if |batches| == |OrderedDomains| then [current] else []
  {
    RunUnfound(0, batches, orgId, current);
  }

  /** An arrival order: each of the six lookups answers at most once. */
  predicate IsArrivalOrder(arrival: seq<nat>) {
    && |arrival| <= |OrderedDomains|
    && (forall i :: 0 <= i < |arrival| ==> arrival[i] < |OrderedDomains|)
    && (forall i, j :: 0 <= i < j < |arrival| ==> arrival[i] != arrival[j])
  }

  /** The answers of the lookups in arrival order; `lookups[d]` answers for `OrderedDomains[d]`. */
  function Arrived(arrival: seq<nat>, lookups: seq<seq<Cookie>>): (bs: seq<seq<Cookie>>)
    requires |lookups| == |OrderedDomains|
    requires forall i :: 0 <= i < |arrival| ==> arrival[i] < |OrderedDomains|
    ensures |bs| == |arrival|
  {
    seq(|arrival|, i requires 0 <= i < |arrival| => lookups[arrival[i]])
  }

  // ---------------------------------------------------------------------------
  // The getSfHost handler

  /**
    The replies the `getSfHost` handler sends for a page on `host` (`None` is a `null`
    reply), given the `sid` cookie of the page and the lookup answers that have
    arrived, in arrival order.
   */
  function GetSfHost(host: string, pageSid: Option<Cookie>, arrival: seq<nat>, lookups: seq<seq<Cookie>>)
    : (replies: seq<Option<string>>)
    requires |lookups| == |OrderedDomains|
    requires IsArrivalOrder(arrival)
    ensures |replies| <= 1
    ensures IsGatewayHost(host) ==> replies == [Some(host)]
    ensures !IsGatewayHost(host) && !Contains(host, "force.com") ==> replies == [None]
    ensures !IsGatewayHost(host) && IsSalesforceDomain(host) && pageSid.None? ==> replies == [Some(host)]
    ensures |arrival| == |OrderedDomains| ==> |replies| == 1
    ensures !IsGatewayHost(host) && IsSalesforceDomain(host) && pageSid.Some? ==>
      replies ==
        match FirstQualifying(Flatten(Arrived(arrival, lookups)), OrgId(pageSid.value.value))
        case Some(c) => [Some(c.domain)]
        case None => if |arrival| == |OrderedDomains| then [Some(host)] else []
    ensures forall i :: 0 <= i < |replies| && replies[i].Some? && replies[i].value != host ==>
      exists d, j :: 0 <= d < |lookups| && 0 <= j < |lookups[d]| && lookups[d][j].domain == replies[i].value
        && pageSid.Some? && Qualifies(lookups[d][j], OrgId(pageSid.value.value))
  {
    SalesforceDomainIsForceCom(host);
    if IsGatewayHost(host) then [Some(host)]
    else if !IsSalesforceDomain(host) then [None]
    else match pageSid
      case None => [Some(host)]
      case Some(sid) =>
        var orgId := OrgId(sid.value);
        var batches := Arrived(arrival, lookups);
        FanInOutcome(batches, orgId, host);
        FoundCookieComesFromALookup(arrival, lookups, orgId);
        var replies := FanInReplies(batches, orgId, host);
        seq(|replies|, i requires 0 <= i < |replies| => Some(replies[i]))
  }

  lemma FoundCookieComesFromALookup(arrival: seq<nat>, lookups: seq<seq<Cookie>>, orgId: string)
    requires |lookups| == |OrderedDomains|
    requires IsArrivalOrder(arrival)
    ensures FirstQualifying(Flatten(Arrived(arrival, lookups)), orgId).Some? ==>
      var c := FirstQualifying(Flatten(Arrived(arrival, lookups)), orgId).value;
      Qualifies(c, orgId) && exists d, j :: 0 <= d < |lookups| && 0 <= j < |lookups[d]| && lookups[d][j] == c
  {
    var bs := Arrived(arrival, lookups);
    var r := FirstQualifying(Flatten(bs), orgId);
    if r.Some? {
      FlattenMember(bs, r.value);
      var a :| 0 <= a < |bs| && r.value in bs[a];
      var j :| 0 <= j < |bs[a]| && bs[a][j] == r.value;
      assert lookups[arrival[a]][j] == r.value;
    }
  }

  lemma {:induction false} FlattenMember(bs: seq<seq<Cookie>>, c: Cookie)
    requires c in Flatten(bs)
    ensures exists a :: 0 <= a < |bs| && c in bs[a]
  {
    if c !in bs[0] {
      FlattenMember(bs[1..], c);
      var a :| 0 <= a < |bs[1..]| && c in bs[1..][a];
      assert c in bs[a + 1];
    }
  }

  // ---------------------------------------------------------------------------
  // Arrival order against priority order

  /**
    The highest-priority answer: the domain of the first qualifying cookie when the
    six answers are read in the order the domains are listed, else the current host.
   */
  function PriorityChoice(lookups: seq<seq<Cookie>>, orgId: string, current: string): string {
    match FirstQualifying(Flatten(lookups), orgId)
    case Some(c) => c.domain
    case None => current
  }

  /** When the answers arrive in the order the lookups were issued, the reply is the priority choice. */
  lemma InOrderArrivalIsPriorityChoice(lookups: seq<seq<Cookie>>, orgId: string, current: string)
    requires |lookups| == |OrderedDomains|
    ensures FanInReplies(Arrived([0, 1, 2, 3, 4, 5], lookups), orgId, current)
      == [PriorityChoice(lookups, orgId, current)]
  {
    assert Arrived([0, 1, 2, 3, 4, 5], lookups) == lookups;
    FanInOutcome(lookups, orgId, current);
  }

  /**
    The reply depends on the arrival order: with qualifying cookies on both
    `salesforce.com` and `force.com`, an answer for `force.com` that arrives first wins
    over the higher-priority `salesforce.com` one.
   */
  lemma ArrivalOrderCanOverridePriority()
    ensures
      var orgId := "00D1";
      var high := Cookie("00D1!a", "acme.my.salesforce.com");
      var low := Cookie("00D1!b", "acme.lightning.force.com");
      var lookups := [[high], [], [], [], [], [low]];
      && PriorityChoice(lookups, orgId, "host") == "acme.my.salesforce.com"
      && FanInReplies(Arrived([5, 0, 1, 2, 3, 4], lookups), orgId, "host") == ["acme.lightning.force.com"]
  {
    var orgId := "00D1";
    var high := Cookie("00D1!a", "acme.my.salesforce.com");
    var low := Cookie("00D1!b", "acme.lightning.force.com");
    var lookups := [[high], [], [], [], [], [low]];
    assert Qualifies(high, orgId) by { assert high.value[..|orgId + "!"|] == orgId + "!"; }
    assert Qualifies(low, orgId) by { assert low.value[..|orgId + "!"|] == orgId + "!"; }
    assert Flatten(lookups) == [high] + Flatten(lookups[1..]);
    var arrived := Arrived([5, 0, 1, 2, 3, 4], lookups);
    assert arrived[0] == [low];
    assert Flatten(arrived) == [low] + Flatten(arrived[1..]);
    FanInOutcome(arrived, orgId, "host");
  }

  // ---------------------------------------------------------------------------
  // The getSession handler

  /** The session a page works with: the cookie value and the host that issued it. */
  datatype Session = Session(key: string, hostname: string)

  /** The active tab of the current window, with the hostname of its URL. */
  datatype ActiveTab = ActiveTab(url: string, hostname: string)

  /**
    The `getSession` reply. `primary` is the `sid` cookie for `https://<sfHost>`;
    `tab` the active tab, if any; `fallback` the `sid` cookie for the tab's URL, which
    is only looked up when the primary cookie is missing and the tab has a URL.
   */
  function GetSession(primary: Option<Cookie>, tab: Option<ActiveTab>, fallback: Option<Cookie>): (r: Option<Session>)
    ensures primary.Some? ==> r == Some(Session(primary.value.value, primary.value.domain))
    ensures primary.None? && tab.Some? && tab.value.url != "" && fallback.Some? ==>
      r == Some(Session(fallback.value.value, tab.value.hostname))
    ensures r.None? <==> primary.None? && (tab.None? || tab.value.url == "" || fallback.None?)
  {
    match primary
    case Some(c) => Some(Session(c.value, c.domain))
    case None =>
      match tab
      case Some(t) =>
        if t.url != "" then
          match fallback
          case Some(f) => Some(Session(f.value, t.hostname))
          case None => None
        else None
      case None => None
  }
}

=== FILE: sorting.dfy ===
/**
  `Array.prototype.sort()` without a comparator, on strings: ascending order of the
  strings' UTF-16 code units. The inspector sorts a record's field names this way
  before it lists them.
 */
module Sorting {

  // ---------------------------------------------------------------------------
  // UTF-16 code-unit order

  /** The UTF-16 code units of a character: itself, or a surrogate pair. */
  function Units(c: char): (u: seq<int>)
    ensures |u| == 1 <==> (c as int) < 0x10000
    ensures 1 <= |u| <= 2
  {
    var cp := c as int;
    if cp < 0x10000 then [cp] else [0xD800 + (cp - 0x10000) / 0x400, 0xDC00 + (cp - 0x10000) % 0x400]
  }

  /** The UTF-16 code units of a string, the sequence JavaScript compares. */
  function Utf16(s: string): seq<int> {
    if |s| == 0 then [] else Units(s[0]) + Utf16(s[1..])
  }

  /** Lexicographic order on code-unit sequences; a proper prefix comes first. */
  predicate UnitsLess(a: seq<int>, b: seq<int>) {
    if |a| == 0 then |b| > 0
    else |b| > 0 && (a[0] < b[0] || (a[0] == b[0] && UnitsLess(a[1..], b[1..])))
  }

  /** One character's code units packed into a single number, ordered like the units. */
  function UnitKey(c: char): int {
    var u := Units(c);
    if |u| == 1 then u[0] * 0x10000 else u[0] * 0x10000 + u[1]
  }

  /** The order the sort uses: character by character, by packed code units. */
  predicate Below(a: string, b: string) {
    if |a| == 0 then |b| > 0
    else |b| > 0 && (UnitKey(a[0]) < UnitKey(b[0]) || (a[0] == b[0] && Below(a[1..], b[1..])))
  }

  lemma UnitKeyInjective(a: char, b: char)
    requires UnitKey(a) == UnitKey(b)
    ensures a == b
  {
    var x := a as int;
    var y := b as int;
    if x >= 0x10000 && y >= 0x10000 {
      var hx := (x - 0x10000) / 0x400;
      var hy := (y - 0x10000) / 0x400;
      var lx := (x - 0x10000) % 0x400;
      var ly := (y - 0x10000) % 0x400;
      assert (0xD800 + hx) * 0x10000 + 0xDC00 + lx == (0xD800 + hy) * 0x10000 + 0xDC00 + ly;
      assert hx == hy;
      assert x == 0x10000 + hx * 0x400 + lx;
    }
  }

  lemma UnitsLessCommonPrefix(u: seq<int>, x: seq<int>, y: seq<int>)
    ensures UnitsLess(u + x, u + y) <==> UnitsLess(x, y)
  {
    if |u| > 0 {
      assert (u + x)[1..] == u[1..] + x;
      assert (u + y)[1..] == u[1..] + y;
      UnitsLessCommonPrefix(u[1..], x, y);
    } else {
      assert u + x == x && u + y == y;
    }
  }

  /** At the first differing character, comparing code units is comparing packed keys. */
  lemma FirstDifference(a: char, b: char, x: seq<int>, y: seq<int>)
    requires a != b
    ensures UnitsLess(Units(a) + x, Units(b) + y) <==> UnitKey(a) < UnitKey(b)
  {
    var ua := Units(a);
    var ub := Units(b);
    assert (ua + x)[0] == ua[0] && (ub + y)[0] == ub[0];
    assert (ua + x)[1..] == ua[1..] + x && (ub + y)[1..] == ub[1..] + y;
    if |ua| == 2 && |ub| == 2 && ua[0] == ub[0] {
      assert ua[1] != ub[1] by {
        if ua[1] == ub[1] {
          UnitKeyInjective(a, b);
        }
      }
      assert (ua[1..] + x)[0] == ua[1] && (ub[1..] + y)[0] == ub[1];
    }
  }

  /** The packed order is JavaScript's code-unit order. */
  lemma {:induction false} BelowIsCodeUnitOrder(a: string, b: string)
    ensures Below(a, b) <==> UnitsLess(Utf16(a), Utf16(b))
  {
    if |a| > 0 && |b| > 0 {
      if a[0] == b[0] {
        UnitsLessCommonPrefix(Units(a[0]), Utf16(a[1..]), Utf16(b[1..]));
        BelowIsCodeUnitOrder(a[1..], b[1..]);
      } else {
        FirstDifference(a[0], b[0], Utf16(a[1..]), Utf16(b[1..]));
      }
    }
  }

  lemma {:induction false} BelowIrreflexive(a: string)
    ensures !Below(a, a)
  {
    if |a| > 0 {
      BelowIrreflexive(a[1..]);
    }
  }

  lemma {:induction false} BelowTransitive(a: string, b: string, c: string)
    requires Below(a, b) && Below(b, c)
    ensures Below(a, c)
  {
    if |a| > 0 && a[0] == b[0] && b[0] == c[0] {
      BelowTransitive(a[1..], b[1..], c[1..]);
    }
  }

  lemma {:induction false} BelowTotal(a: string, b: string)
    requires a != b
    ensures Below(a, b) || Below(b, a)
  {
    if |a| > 0 && |b| > 0 {
      if a[0] == b[0] {
        assert a == [a[0]] + a[1..] && b == [b[0]] + b[1..];
        BelowTotal(a[1..], b[1..]);
      } else if UnitKey(a[0]) == UnitKey(b[0]) {
        UnitKeyInjective(a[0], b[0]);
      }
    }
  }

  /** Astral characters sort before the last block of the Basic Multilingual Plane, as in JavaScript. */
  lemma SurrogatesSortFirst()
    ensures Below("\U{10000}", "\U{E000}")
  {
  }

  // ---------------------------------------------------------------------------
  // Sorting

  predicate Sorted(s: seq<string>) {
    forall i, j :: 0 <= i < j < |s| ==> Below(s[i], s[j])
  }

  predicate Distinct(s: seq<string>) {
    forall i, j :: 0 <= i < j < |s| ==> s[i] != s[j]
  }

  /** In a sequence without repeats, equal entries sit at the same index. */
  lemma DistinctIndex(s: seq<string>, i: int, j: int)
    requires Distinct(s) && 0 <= i < |s| && 0 <= j < |s| && s[i] == s[j]
    ensures i == j
  {
  }

  function Insert(x: string, s: seq<string>): (r: seq<string>)
    ensures multiset(r) == multiset(s) + multiset{x}
    ensures Sorted(s) && x !in s ==> Sorted(r)
  {
    if |s| == 0 then [x]
    else if Below(x, s[0]) then
      InsertFront(x, s);
      [x] + s
    else
      var rest := Insert(x, s[1..]);
      InsertBehind(x, s, rest);
      [s[0]] + rest
  }

  /** A string below everything in a sorted sequence can go in front of it. */
  lemma ConsSorted(h: string, t: seq<string>)
    requires Sorted(t) && forall y :: y in t ==> Below(h, y)
    ensures Sorted([h] + t)
  {
    var r := [h] + t;
    forall i, j | 0 <= i < j < |r| ensures Below(r[i], r[j]) {
      assert r[j] == t[j - 1];
      if i > 0 {
        assert r[i] == t[i - 1];
      }
    }
  }

  /** Inserting in front of a larger head. */
  lemma InsertFront(x: string, s: seq<string>)
    requires |s| > 0 && Below(x, s[0])
    ensures multiset([x] + s) == multiset(s) + multiset{x}
    ensures Sorted(s) ==> Sorted([x] + s)
  {
    if Sorted(s) {
      forall y | y in s ensures Below(x, y) {
        var j :| 0 <= j < |s| && s[j] == y;
        if j > 0 {
          BelowTransitive(x, s[0], s[j]);
        }
      }
      ConsSorted(x, s);
    }
  }

  /** Inserting behind a smaller head, into the tail. */
  lemma InsertBehind(x: string, s: seq<string>, rest: seq<string>)
    requires |s| > 0 && !Below(x, s[0])
    requires multiset(rest) == multiset(s[1..]) + multiset{x}
    requires Sorted(s[1..]) && x !in s[1..] ==> Sorted(rest)
    ensures multiset([s[0]] + rest) == multiset(s) + multiset{x}
    ensures Sorted(s) && x !in s ==> Sorted([s[0]] + rest)
  {
    assert s == [s[0]] + s[1..];
    if Sorted(s) && x !in s {
      assert Sorted(s[1..]) by {
        forall i, j | 0 <= i < j < |s[1..]| ensures Below(s[1..][i], s[1..][j]) {
          assert s[1..][i] == s[i + 1] && s[1..][j] == s[j + 1];
        }
      }
      BelowTotal(x, s[0]);
      forall y | y in rest ensures Below(s[0], y) {
        assert y in multiset(rest);
        if y != x {
          assert y in multiset(s[1..]);
          var j :| 0 <= j < |s[1..]| && s[1..][j] == y;
          assert s[j + 1] == y;
        }
      }
      ConsSorted(s[0], rest);
    }
  }

  lemma HeadNotInTail(s: seq<string>)
    requires |s| > 0 && Distinct(s)
    ensures s[0] !in multiset(s[1..])
  {
  }

  /** `keys.sort()`: the same strings, in ascending code-unit order. */
  function Sort(s: seq<string>): (r: seq<string>)
    ensures multiset(r) == multiset(s)
    ensures |r| == |s|
    ensures Distinct(s) ==> Sorted(r)
  {
    if |s| == 0 then []
    else
      var rest := Sort(s[1..]);
      SortStep(s, rest);
      Insert(s[0], rest)
  }

  /** Splitting off the head: the rest is a permutation of the tail, which repeats nothing the head is. */
  lemma SortStep(s: seq<string>, rest: seq<string>)
    requires |s| > 0 && multiset(rest) == multiset(s[1..])
    ensures multiset(s) == multiset(rest) + multiset{s[0]}
    ensures Distinct(s) ==> Distinct(s[1..]) && s[0] !in rest
  {
    assert s == [s[0]] + s[1..];
    if Distinct(s) {
      HeadNotInTail(s);
      assert s[0] !in multiset(rest);
    }
  }

  /** A sorted sequence without repeats has each string once. */
  lemma SortedIsDistinct(s: seq<string>)
    requires Sorted(s)
    ensures Distinct(s)
  {
    forall i, j | 0 <= i < j < |s| ensures s[i] != s[j] {
      if s[i] == s[j] {
        BelowIrreflexive(s[i]);
      }
    }
  }
}

=== FILE: strings.dfy ===
/**
  String predicates shared by every part of the extension: prefix, suffix and
  substring tests (`startsWith`, `endsWith`, `includes`), splitting at the first
  occurrence of a character, and the ASCII lower-casing used by the case-insensitive
  filters.
 */
module Strings {

  predicate StartsWith(s: string, p: string) {
    |p| <= |s| && s[..|p|] == p
  }

  predicate EndsWith(s: string, p: string) {
    |p| <= |s| && s[|s| - |p|..] == p
  }

  /** A string that starts with `p + q` starts with `p`. */
  lemma StartsWithShorter(s: string, p: string, q: string)
    requires StartsWith(s, p + q)
    ensures StartsWith(s, p)
  {
    assert s[..|p|] == (p + q)[..|p|];
  }

  /** `p` occurs in `s` starting at index `i`. */
  predicate OccursAt(s: string, p: string, i: int) {
    0 <= i && i + |p| <= |s| && s[i..i + |p|] == p
  }

  /** Two pieces occurring back to back occur together. */
  lemma OccursAtConcat(s: string, p: string, q: string, i: int)
    requires OccursAt(s, p, i) && OccursAt(s, q, i + |p|)
    ensures OccursAt(s, p + q, i)
  {
    assert s[i..i + |p + q|] == s[i..i + |p|] + s[i + |p|..i + |p| + |q|];
  }

  /** JavaScript's `s.includes(p)`. */
  predicate Contains(s: string, p: string) {
    exists i | 0 <= i <= |s| - |p| :: OccursAt(s, p, i)
  }

  /** A string without the first character of `p` does not contain `p`. */
  lemma MissingFirstChar(s: string, p: string)
    requires |p| > 0 && p[0] !in s
    ensures !Contains(s, p)
  {
  }

  lemma ContainsAt(s: string, p: string, i: int)
    requires OccursAt(s, p, i)
    ensures Contains(s, p)
  {
  }

  /** Containment is transitive: a string holding `p` holds everything `p` holds. */
  lemma ContainsTransitive(s: string, p: string, q: string)
    requires Contains(s, p) && Contains(p, q)
    ensures Contains(s, q)
  {
    var i :| 0 <= i <= |s| - |p| && OccursAt(s, p, i);
    var j :| 0 <= j <= |p| - |q| && OccursAt(p, q, j);
    forall k | 0 <= k < |q|
      ensures s[i + j + k] == q[k]
    {
      assert p[j + k] == q[k];
      assert s[i + (j + k)] == p[j + k];
    }
    assert s[i + j..i + j + |q|] == q;
    assert OccursAt(s, q, i + j);
  }

  /** A string contains each of its own prefixes, suffixes and itself. */
  lemma ContainsPrefix(s: string, p: string)
    requires StartsWith(s, p)
    ensures Contains(s, p)
  {
    assert OccursAt(s, p, 0);
  }

  lemma ContainsSuffix(s: string, p: string)
    requires EndsWith(s, p)
    ensures Contains(s, p)
  {
    assert OccursAt(s, p, |s| - |p|);
  }

  lemma ContainsConcat(a: string, p: string, b: string)
    ensures Contains(a + p + b, p)
  {
    assert (a + p + b)[|a|..|a| + |p|] == p;
    assert OccursAt(a + p + b, p, |a|);
  }

  lemma EmptyContained(s: string)
    ensures Contains(s, "")
  {
    assert OccursAt(s, "", 0);
  }

  /** A string that contains `p` contains every character of `p`. */
  lemma ContainsChar(s: string, p: string, k: int)
    requires Contains(s, p) && 0 <= k < |p|
    ensures p[k] in s
  {
    var i :| 0 <= i <= |s| - |p| && OccursAt(s, p, i);
    assert s[i + k] == p[k];
  }

  /**
    The part of `s` before the first occurrence of `c` (all of `s` when `c` does not
    occur): element 0 of JavaScript's `s.split(c)`.
   */
  function TakeUntil(s: string, c: char): (r: string)
    ensures StartsWith(s, r)
    ensures c !in r
    ensures |r| < |s| ==> s[|r|] == c
    ensures |r| == |s| <==> c !in s
  {
    if |s| == 0 then ""
    else if s[0] == c then ""
    else [s[0]] + TakeUntil(s[1..], c)
  }

  /**
    The part of `s` after the first occurrence of `c`; empty when `c` does not occur.
   */
  function DropThrough(s: string, c: char): (r: string)
    ensures c in s ==> s == TakeUntil(s, c) + [c] + r
    ensures c !in s ==> r == ""
  {
    var head := TakeUntil(s, c);
    if |head| < |s| then s[|head| + 1..] else ""
  }

  /** Splitting at the first `c` of `a + [c] + b`, when `a` has no `c`, gives back `a` and `b`. */
  lemma SplitAtFirst(a: string, c: char, b: string)
    requires c !in a
    ensures TakeUntil(a + [c] + b, c) == a
    ensures DropThrough(a + [c] + b, c) == b
  {
    var s := a + [c] + b;
    var r := TakeUntil(s, c);
    assert s[|a|] == c;
    assert r == s[..|r|] == a;
    assert s[|a| + 1..] == b;
  }

  /**
    The part of `s` after the last occurrence of `c` (all of `s` when `c` does not
    occur): the last element of JavaScript's `s.split(c)`.
   */
  function AfterLast(s: string, c: char): (r: string)
    ensures LastRun(s, c, r)
  {
    if |s| == 0 then
      LastRunEmpty(c);
      ""
    else if s[|s| - 1] == c then
      LastRunAtC(s, c);
      ""
    else
      var r0 := AfterLast(s[..|s| - 1], c);
      LastRunStep(s, c, r0);
      r0 + [s[|s| - 1]]
  }

  /** `r` is the part of `s` after its last `c`, or all of `s` when there is none. */
  predicate LastRun(s: string, c: char, r: string) {
    && EndsWith(s, r)
    && c !in r
    && (|r| < |s| ==> s[|s| - |r| - 1] == c)
    && (|r| == |s| <==> c !in s)
  }

  lemma SnocSplit(s: string)
    requires |s| > 0
    ensures s[..|s| - 1] + [s[|s| - 1]] == s
  {
  }

  /** `p + x` starts with `p`, is `x` after it, and holds `c` only where `p` or `x` does. */
  lemma PrefixPieces(p: string, x: string, c: char)
    ensures StartsWith(p + x, p) && (p + x)[|p|..] == x
    ensures c in p + x <==> c in p || c in x
  {
    assert (p + x)[..|p|] == p;
    if c in p + x {
      var k :| 0 <= k < |p + x| && (p + x)[k] == c;
      if k >= |p| {
        assert x[k - |p|] == c;
      }
    }
  }

  lemma LastRunEmpty(c: char)
    ensures LastRun("", c, "")
  {
  }

  /** The run after the last `c` of `s` is the one of `s` without its last character, extended. */
  lemma LastRunStep(s: string, c: char, r0: string)
    requires |s| > 0 && s[|s| - 1] != c && LastRun(s[..|s| - 1], c, r0)
    ensures LastRun(s, c, r0 + [s[|s| - 1]])
  {
    LastRunSnoc(s[..|s| - 1], s[|s| - 1], c, r0);
    SnocSplit(s);
  }

  /** A string ending in `c` has nothing after its last `c`. */
  lemma LastRunAtC(s: string, c: char)
    requires |s| > 0 && s[|s| - 1] == c
    ensures LastRun(s, c, "")
  {
    assert s[|s|..] == "";
  }

  /** Appending a character other than `c` extends the run after the last `c`. */
  lemma LastRunSnoc(t: string, x: char, c: char, r: string)
    requires LastRun(t, c, r) && x != c
    ensures LastRun(t + [x], c, r + [x])
  {
    var s := t + [x];
    assert s[|s| - |r| - 1..] == t[|t| - |r|..] + [x];
    if |r| < |t| {
      assert s[|s| - |r| - 2] == t[|t| - |r| - 1];
    }
    assert c in s <==> c in t;
  }

  /** Splitting at the last `c` of `a + [c] + b`, when `b` has no `c`, gives back `b`. */
  lemma SplitAtLast(a: string, c: char, b: string)
    requires c !in b
    ensures AfterLast(a + [c] + b, c) == b
  {
    var s := a + [c] + b;
    var r := AfterLast(s, c);
    assert s[|s| - |b| - 1] == c;
    assert r == s[|s| - |r|..];
    assert s[|s| - |b|..] == b;
  }

  /** The end of the longest run of `inClass` characters of `s` starting at `j`. */
  function RunEnd(s: string, j: nat, inClass: char -> bool): (k: nat)
    requires j <= |s|
    ensures j <= k <= |s|
    ensures forall m :: j <= m < k ==> inClass(s[m])
    ensures k == |s| || !inClass(s[k])
    decreases |s| - j
  {
    if j == |s| || !inClass(s[j]) then j else RunEnd(s, j + 1, inClass)
  }

  /** A run ends exactly where the class stops holding. */
  lemma {:induction false} RunEndAt(s: string, j: nat, k: nat, inClass: char -> bool)
    requires j <= k <= |s|
    requires forall m :: j <= m < k ==> inClass(s[m])
    requires k == |s| || !inClass(s[k])
    ensures RunEnd(s, j, inClass) == k
  {
  }

  /** ASCII upper-case letters map to lower case; every other character is unchanged. */
  function LowerChar(c: char): (r: char)
    ensures 'A' <= c <= 'Z' ==> r as int == c as int + 32
    ensures !('A' <= c <= 'Z') ==> r == c
  {
    if 'A' <= c <= 'Z' then (c as int + 32) as char else c
  }

  /** ASCII lower-casing, standing in for `String.prototype.toLowerCase`. */
  function Lower(s: string): (r: string)
    ensures |r| == |s|
    ensures forall i :: 0 <= i < |s| ==> r[i] == LowerChar(s[i])
  {
    seq(|s|, i requires 0 <= i < |s| => LowerChar(s[i]))
  }

  /** Lower-casing twice is lower-casing once. */
  lemma LowerIdempotent(s: string)
    ensures Lower(Lower(s)) == Lower(s)
  {
  }

  /**
    The case-insensitive substring test used by both the users-page filter and the
    inspector's search box: the lower-cased text contains the lower-cased term.
   */
  predicate MatchesFilter(text: string, term: string) {
    Contains(Lower(text), Lower(term))
  }

  /** An empty search term matches every text. */
  lemma EmptyTermMatches(text: string)
    ensures MatchesFilter(text, "")
  {
    EmptyContained(Lower(text));
  }
}

=== FILE: uri_encoding.dfy ===
/**
  `encodeURIComponent` and `decodeURIComponent` (URI Handling Functions, section 19.2.6
  of ECMA-262): every character outside the unreserved set is written as the UTF-8
  octets of its code point, each as `%` and two upper-case hexadecimal digits
  (percent-encoding, section 2.1 of RFC 3986). The decoder is the partner that
  proves the encoder loses nothing.
 */
module UriEncoding {
  import opened Wrappers

  type Byte = b: int | 0 <= b < 256

  /** The characters `encodeURIComponent` leaves alone: letters, digits and `-_.!~*'()`. */
  predicate IsUnreserved(c: char) {
    || 'A' <= c <= 'Z'
    || 'a' <= c <= 'z'
    || '0' <= c <= '9'
    || c == '-' || c == '_' || c == '.' || c == '!' || c == '~' || c == '*' || c == '\'' || c == '(' || c == ')'
  }

  /** UTF-8 octets of a Unicode scalar value. */
  function Utf8(c: char): (bs: seq<Byte>)
    ensures 1 <= |bs| <= 4
    ensures |bs| == 1 <==> c as int < 0x80
  {
    var cp := c as int;
    if cp < 0x80 then [cp]
    else if cp < 0x800 then [0xC0 + cp / 64, 0x80 + cp % 64]
    else if cp < 0x10000 then [0xE0 + cp / 4096, 0x80 + (cp / 64) % 64, 0x80 + cp % 64]
    else [0xF0 + cp / 262144, 0x80 + (cp / 4096) % 64, 0x80 + (cp / 64) % 64, 0x80 + cp % 64]
  }

  function HexDigit(d: int): (c: char)
    requires 0 <= d < 16
    ensures IsUnreserved(c)
  {
    "0123456789ABCDEF"[d]
  }

  /** One octet as `%XY`. */
  function Escape(b: Byte): (r: string)
    ensures |r| == 3 && r[0] == '%' && IsUnreserved(r[1]) && IsUnreserved(r[2])
  {
    ['%', HexDigit(b / 16), HexDigit(b % 16)]
  }

  function EscapeAll(bs: seq<Byte>): (r: string)
    ensures |r| == 3 * |bs|
    ensures forall i :: 0 <= i < |r| ==> r[i] == '%' || IsUnreserved(r[i])
  {
    if |bs| == 0 then "" else Escape(bs[0]) + EscapeAll(bs[1..])
  }

  function EncodeChar(c: char): (r: string)
    ensures forall i :: 0 <= i < |r| ==> r[i] == '%' || IsUnreserved(r[i])
  {
    if IsUnreserved(c) then [c] else EscapeAll(Utf8(c))
  }

  /** `encodeURIComponent(s)`. Its output consists of unreserved characters and `%` only. */
  function Encode(s: string): (r: string)
    ensures forall i :: 0 <= i < |r| ==> r[i] == '%' || IsUnreserved(r[i])
  {
    if |s| == 0 then "" else EncodeChar(s[0]) + Encode(s[1..])
  }

  /** The encoded text can sit inside a query string: it holds none of `&`, `?`, `=`, `/`, `#`. */
  lemma EncodedHasNoDelimiters(s: string)
    ensures '&' !in Encode(s) && '?' !in Encode(s) && '=' !in Encode(s)
    ensures '/' !in Encode(s) && '#' !in Encode(s)
  {
    var r := Encode(s);
    Absent(r, '&');
    Absent(r, '?');
    Absent(r, '=');
    Absent(r, '/');
    Absent(r, '#');
  }

  /** A character that is neither `%` nor unreserved does not occur in escaped text. */
  lemma Absent(r: string, x: char)
    requires forall i :: 0 <= i < |r| ==> r[i] == '%' || IsUnreserved(r[i])
    requires x != '%' && !IsUnreserved(x)
    ensures x !in r
  {
  }

  // ---------------------------------------------------------------------------
  // Decoding

  function HexValue(c: char): Option<nat> {
    if '0' <= c <= '9' then Some(c as int - '0' as int)
    else if 'A' <= c <= 'F' then Some(c as int - 'A' as int + 10)
    else if 'a' <= c <= 'f' then Some(c as int - 'a' as int + 10)
    else None
  }

  /** The octet written by the `%XY` at the start of `s`, if there is one. */
  function ReadByte(s: string): (r: Option<Byte>)
    ensures r.Some? ==> |s| >= 3 && s[0] == '%'
  {
    if |s| >= 3 && s[0] == '%' then
      match (HexValue(s[1]), HexValue(s[2]))
      case (Some(h), Some(l)) => if h < 16 && l < 16 then Some(h * 16 + l) else None
      case _ => None
    else None
  }

  /** `n` consecutive `%XY` escapes at the start of `s`. */
  function ReadEscapes(s: string, n: nat): (r: Option<seq<Byte>>)
    ensures r.Some? ==> |r.value| == n && 3 * n <= |s|
  {
    if n == 0 then Some([])
    else match ReadByte(s)
      case None => None
      case Some(b) =>
        match ReadEscapes(s[3..], n - 1)
        case None => None
        case Some(bs) => Some([b] + bs)
  }

  /** How many octets the UTF-8 sequence led by `b` has; 0 when `b` cannot lead one. */
  function SequenceLength(b: Byte): nat {
    if b < 0x80 then 1
    else if 0xC0 <= b < 0xE0 then 2
    else if 0xE0 <= b < 0xF0 then 3
    else if 0xF0 <= b < 0xF8 then 4
    else 0
  }

  predicate IsContinuation(b: Byte) {
    0x80 <= b < 0xC0
  }

  /** The scalar value of a well-formed, shortest-form UTF-8 sequence. */
  function DecodeScalar(bs: seq<Byte>): Option<char> {
    if |bs| == 1 && bs[0] < 0x80 then Some(bs[0] as char)
    else if |bs| == 2 && 0xC0 <= bs[0] < 0xE0 && IsContinuation(bs[1]) then
      var cp: int := (bs[0] as int - 0xC0) * 64 + (bs[1] as int - 0x80);
      if cp >= 0x80 then Some(cp as char) else None
    else if |bs| == 3 && 0xE0 <= bs[0] < 0xF0 && IsContinuation(bs[1]) && IsContinuation(bs[2]) then
      var cp: int := (bs[0] as int - 0xE0) * 4096 + (bs[1] as int - 0x80) * 64 + (bs[2] as int - 0x80);
      if cp >= 0x800 && !(0xD800 <= cp < 0xE000) then Some(cp as char) else None
    else if |bs| == 4 && 0xF0 <= bs[0] < 0xF8 && IsContinuation(bs[1]) && IsContinuation(bs[2])
            && IsContinuation(bs[3]) then
      var cp: int := (bs[0] as int - 0xF0) * 262144 + (bs[1] as int - 0x80) * 4096
                     + (bs[2] as int - 0x80) * 64 + (bs[3] as int - 0x80);
      if 0x10000 <= cp <= 0x10FFFF then Some(cp as char) else None
    else None
  }

  /**
    `decodeURIComponent(s)`; `None` where it throws `URIError` (a stray `%`, a bad
    hexadecimal digit, or octets that are not UTF-8).
   */
  function Decode(s: string): Option<string>
    decreases |s|
  {
    if |s| == 0 then Some("")
    else if s[0] != '%' then
      match Decode(s[1..])
      case None => None
      case Some(t) => Some([s[0]] + t)
    else
      match ReadByte(s)
      case None => None
      case Some(lead) =>
        var n := SequenceLength(lead);
        if n == 0 then None
        else
          match ReadEscapes(s, n)
          case None => None
          case Some(bs) =>
            match DecodeScalar(bs)
            case None => None
            case Some(c) =>
              match Decode(s[3 * n..])
              case None => None
              case Some(t) => Some([c] + t)
  }

  // ---------------------------------------------------------------------------
  // Round trip

  lemma HexDigitValue(d: int)
    requires 0 <= d < 16
    ensures HexValue(HexDigit(d)) == Some(d)
  {
  }

  lemma ReadEscape(b: Byte, rest: string)
    ensures ReadByte(Escape(b) + rest) == Some(b)
  {
    HexDigitValue(b / 16);
    HexDigitValue(b % 16);
  }

  lemma {:induction false} EscapeAllSuffix(bs: seq<Byte>, rest: string)
    ensures (EscapeAll(bs) + rest)[3 * |bs|..] == rest
  {
  }

  lemma ReadEscapesStep(s: string, b: Byte, n: nat)
    requires ReadByte(s) == Some(b)
    ensures ReadEscapes(s, n + 1) ==
      (match ReadEscapes(s[3..], n) case None => None case Some(bs) => Some([b] + bs))
  {
  }

  lemma EscapeAllCons(bs: seq<Byte>, rest: string)
    requires |bs| > 0
    ensures EscapeAll(bs) + rest == Escape(bs[0]) + (EscapeAll(bs[1..]) + rest)
    ensures (EscapeAll(bs) + rest)[3..] == EscapeAll(bs[1..]) + rest
  {
    assert EscapeAll(bs) == Escape(bs[0]) + EscapeAll(bs[1..]);
    ConcatDropThree(Escape(bs[0]), EscapeAll(bs[1..]), rest);
  }

  lemma ConcatDropThree(p: string, q: string, rest: string)
    requires |p| == 3
    ensures p + q + rest == p + (q + rest)
    ensures (p + q + rest)[3..] == q + rest
  {
  }

  lemma {:induction false} ReadEscapesOfEscapeAll(bs: seq<Byte>, rest: string)
    ensures ReadEscapes(EscapeAll(bs) + rest, |bs|) == Some(bs)
  {
    if |bs| > 0 {
      var tail := EscapeAll(bs[1..]) + rest;
      var s := EscapeAll(bs) + rest;
      EscapeAllCons(bs, rest);
      ReadEscape(bs[0], tail);
      ReadEscapesOfEscapeAll(bs[1..], rest);
      ReadEscapesStep(s, bs[0], |bs| - 1);
      assert [bs[0]] + bs[1..] == bs;
    }
  }

  lemma Utf8Decodes(c: char)
    ensures DecodeScalar(Utf8(c)) == Some(c)
    ensures SequenceLength(Utf8(c)[0]) == |Utf8(c)|
  {
    var cp := c as int;
    if cp < 0x80 {
    } else if cp < 0x800 {
      Utf8DecodesTwo(c);
    } else if cp < 0x10000 {
      Utf8DecodesThree(c);
    } else {
      Utf8DecodesFour(c);
    }
  }

  lemma Utf8DecodesTwo(c: char)
    requires 0x80 <= c as int < 0x800
    ensures DecodeScalar(Utf8(c)) == Some(c)
    ensures SequenceLength(Utf8(c)[0]) == 2
  {
    var cp := c as int;
    var a, b := cp / 64, cp % 64;
    assert Utf8(c) == [0xC0 + a, 0x80 + b];
    assert cp == a * 64 + b;
  }

  lemma Utf8DecodesThree(c: char)
    requires 0x800 <= c as int < 0x10000
    ensures DecodeScalar(Utf8(c)) == Some(c)
    ensures SequenceLength(Utf8(c)[0]) == 3
  {
    var cp := c as int;
    var a, b, d := cp / 4096, (cp / 64) % 64, cp % 64;
    assert Utf8(c) == [0xE0 + a, 0x80 + b, 0x80 + d];
    DivSplit64(cp);
    assert cp == a * 4096 + b * 64 + d;
  }

  lemma Utf8DecodesFour(c: char)
    requires 0x10000 <= c as int
    ensures DecodeScalar(Utf8(c)) == Some(c)
    ensures SequenceLength(Utf8(c)[0]) == 4
  {
    var cp := c as int;
    var a, b, d, e := cp / 262144, (cp / 4096) % 64, (cp / 64) % 64, cp % 64;
    assert Utf8(c) == [0xF0 + a, 0x80 + b, 0x80 + d, 0x80 + e];
    DivSplit64(cp);
    DivSplit4096(cp);
    assert cp == a * 262144 + b * 4096 + d * 64 + e;
  }

  /** Dividing by 64 twice is dividing by 4096, and the quotient by 64 splits around it. */
  lemma DivSplit64(n: nat)
    ensures n / 64 / 64 == n / 4096
    ensures n / 64 == (n / 4096) * 64 + (n / 64) % 64
  {
  }

  /** Dividing by 4096 and then by 64 is dividing by 262144. */
  lemma DivSplit4096(n: nat)
    ensures n / 4096 / 64 == n / 262144
    ensures n / 4096 == (n / 262144) * 64 + (n / 4096) % 64
  {
  }

  lemma DecodeEscapedChar(c: char, rest: string)
    requires !IsUnreserved(c)
    ensures Decode(EscapeAll(Utf8(c)) + rest) ==
      (match Decode(rest) case None => None case Some(t) => Some([c] + t))
  {
    var bs := Utf8(c);
    var s := EscapeAll(bs) + rest;
    ReadEscapesOfEscapeAll(bs, rest);
    EscapeAllSuffix(bs, rest);
    EscapeAllCons(bs, rest);
    ReadEscape(bs[0], EscapeAll(bs[1..]) + rest);
    Utf8Decodes(c);
    DecodeEscapeStep(s, bs, c);
  }

  /** How `Decode` proceeds at a `%` whose octets read back as one UTF-8 character. */
  lemma DecodeEscapeStep(s: string, bs: seq<Byte>, c: char)
    requires |bs| > 0 && ReadByte(s) == Some(bs[0]) && SequenceLength(bs[0]) == |bs|
    requires ReadEscapes(s, |bs|) == Some(bs) && DecodeScalar(bs) == Some(c)
    ensures Decode(s) ==
      (match Decode(s[3 * |bs|..]) case None => None case Some(t) => Some([c] + t))
  {
  }

  /** Decoding the escapes of one character gives back that character. */
  lemma {:induction false} DecodeEncodeChar(c: char, rest: string)
    ensures Decode(EncodeChar(c) + rest) ==
      (match Decode(rest) case None => None case Some(t) => Some([c] + t))
  {
    var s := EncodeChar(c) + rest;
    if IsUnreserved(c) {
      assert s[1..] == rest;
    } else {
      DecodeEscapedChar(c, rest);
    }
  }

  /** `decodeURIComponent(encodeURIComponent(s)) == s` for every string. */
  lemma {:induction false} DecodeEncode(s: string)
    ensures Decode(Encode(s)) == Some(s)
  {
    if |s| > 0 {
      DecodeEncode(s[1..]);
      DecodeEncodeChar(s[0], Encode(s[1..]));
      assert [s[0]] + s[1..] == s;
    }
  }

  /** Distinct strings have distinct encodings. */
  lemma EncodeInjective(s: string, t: string)
    requires Encode(s) == Encode(t)
    ensures s == t
  {
    DecodeEncode(s);
    DecodeEncode(t);
  }
}

=== FILE: users_page.dfy ===
/**
  The popup's users page: the address of the user list it fetches, the paging
  buttons, the column and row visibility rules, and the processing of the links in
  the fetched table (Login links turned into incognito frontdoor links, relative
  links made absolute, every other link opened in a new tab).
 */
module UsersPage {
  import opened Wrappers
  import opened Strings
  import opened Decimal
  import opened Frontdoor

  /** The popup's state: the page it was opened on, the org's origin, the session, the paging. */
  datatype PopupState = PopupState(tabUrl: string, domain: string, sessionId: Option<string>, lsr: int, pageSize: int)

  const DefaultPageSize: int := 1000

  const UsersPath: string := "/005?isUserEntityOverride=1&"

  // ---------------------------------------------------------------------------
  // The user list address

  /** The list-view filter parameter, present only for a non-empty view id. */
  function ViewFilter(viewId: string): string {
    if viewId != "" then "fcf=" + viewId + "&" else ""
  }

  /** The query after `UsersPath`: the view filter, the page size and the offset. */
  function UsersQuery(viewId: string, pageSize: int, startNum: int): (q: string)
    ensures StartsWith(q, "fcf=") <==> viewId != ""
  {
    var tail := "rowsperpage=" + IntToString(pageSize) + "&lsr=" + IntToString(startNum);
    assert tail[..4] == "rows";
    if viewId != "" then
      assert (ViewFilter(viewId) + tail)[..4] == "fcf=";
      ViewFilter(viewId) + tail
    else tail
  }

  /** `requestUsers(viewId, startNum)`: the address of the user list page it fetches. */
  function UsersPageUrl(domain: string, viewId: string, pageSize: int, startNum: int): (r: string)
    ensures StartsWith(r, domain + UsersPath)
    ensures r[|domain + UsersPath|..] == UsersQuery(viewId, pageSize, startNum)
  {
    var r := domain + UsersPath + UsersQuery(viewId, pageSize, startNum);
    assert r[..|domain + UsersPath|] == domain + UsersPath;
    r
  }

  /** The parameters a user list query carries. */
  datatype ListQuery = ListQuery(viewId: string, pageSize: int, lsr: int)

  /** Reads `rowsperpage=<n>&lsr=<m>`. */
  function ParsePaging(t: string): Option<(int, int)> {
    var first := TakeUntil(t, '&');
    var second := DropThrough(t, '&');
    if '&' in t && StartsWith(first, "rowsperpage=") && StartsWith(second, "lsr=") then
      match (ParseInt(first[12..]), ParseInt(second[4..]))
      case (Some(p), Some(n)) => Some((p, n))
      case _ => None
    else None
  }

  /** Reads a user list query back into its view id, page size and offset. */
  function ParseUsersQuery(q: string): Option<ListQuery> {
    var first := TakeUntil(q, '&');
    if StartsWith(first, "fcf=") then
      match ParsePaging(DropThrough(q, '&'))
      case Some((p, n)) => Some(ListQuery(first[4..], p, n))
      case None => None
    else
      match ParsePaging(q)
      case Some((p, n)) => Some(ListQuery("", p, n))
      case None => None
  }

  lemma NoAmpersandInNumber(n: int)
    ensures '&' !in IntToString(n)
  {
    if n < 0 {
      assert IntToString(n) == "-" + NatToString(-n);
    }
  }

  lemma PagingReadsBack(pageSize: int, startNum: int)
    ensures ParsePaging("rowsperpage=" + IntToString(pageSize) + "&lsr=" + IntToString(startNum))
      == Some((pageSize, startNum))
  {
    NoAmpersandInNumber(pageSize);
    PagingPieces(IntToString(pageSize), IntToString(startNum));
    IntRoundTrip(pageSize);
    IntRoundTrip(startNum);
  }

  /** How the paging parameters split when the page size text has no `&`. */
  lemma PagingPieces(x: string, y: string)
    requires '&' !in x
    ensures
      var t := "rowsperpage=" + x + "&lsr=" + y;
      && '&' in t
      && TakeUntil(t, '&') == "rowsperpage=" + x
      && DropThrough(t, '&') == "lsr=" + y
      && StartsWith("rowsperpage=" + x, "rowsperpage=") && ("rowsperpage=" + x)[12..] == x
      && StartsWith("lsr=" + y, "lsr=") && ("lsr=" + y)[4..] == y
  {
    var a := "rowsperpage=" + x;
    var b := "lsr=" + y;
    PrefixPieces("rowsperpage=", x, '&');
    PrefixPieces("lsr=", y, '&');
    assert "rowsperpage=" + x + "&lsr=" + y == a + ['&'] + b;
    SplitAtFirst(a, '&', b);
  }

  /** With a view id, the query's first parameter is the filter and the paging follows it. */
  lemma FilterSplits(viewId: string, tail: string)
    requires '&' !in viewId && viewId != ""
    ensures TakeUntil(ViewFilter(viewId) + tail, '&') == "fcf=" + viewId
    ensures DropThrough(ViewFilter(viewId) + tail, '&') == tail
    ensures ("fcf=" + viewId)[4..] == viewId
  {
    var f := "fcf=" + viewId;
    assert '&' !in f by {
      assert forall k :: 0 <= k < |f| ==> f[k] == (if k < 4 then "fcf="[k] else viewId[k - 4]);
    }
    assert ViewFilter(viewId) + tail == f + ['&'] + tail;
    SplitAtFirst(f, '&', tail);
  }

  /** Without a view id, the first parameter is not a filter. */
  lemma NoFilterFirst(tail: string)
    requires StartsWith(tail, "rows")
    ensures !StartsWith(TakeUntil(tail, '&'), "fcf=")
  {
  }

  /**
    The user list query loses nothing: the view id (when it has no `&`), the page size
    and the offset all read back from it.
   */
  lemma UsersQueryReadsBack(viewId: string, pageSize: int, startNum: int)
    requires '&' !in viewId
    ensures ParseUsersQuery(UsersQuery(viewId, pageSize, startNum)) == Some(ListQuery(viewId, pageSize, startNum))
  {
    var tail := "rowsperpage=" + IntToString(pageSize) + "&lsr=" + IntToString(startNum);
    var q := UsersQuery(viewId, pageSize, startNum);
    PagingReadsBack(pageSize, startNum);
    if viewId != "" {
      assert q == ViewFilter(viewId) + tail;
      FilterSplits(viewId, tail);
      ParseFiltered(q, viewId, tail);
    } else {
      assert q == tail;
      assert tail[..4] == "rows";
      NoFilterFirst(tail);
    }
  }

  /** A query whose first parameter is the filter reads the paging from what follows it. */
  lemma ParseFiltered(q: string, viewId: string, tail: string)
    requires TakeUntil(q, '&') == "fcf=" + viewId && DropThrough(q, '&') == tail
    ensures ParseUsersQuery(q) ==
      match ParsePaging(tail)
      case Some((p, n)) => Some(ListQuery(viewId, p, n))
      case None => None
  {
    PrefixPieces("fcf=", viewId, '&');
  }

  // ---------------------------------------------------------------------------
  // Paging

  /** The navigation link's text says "next" in any letter case. */
  predicate IsNextLink(text: string) {
    Contains(Lower(text), "next")
  }

  /** The offset a navigation link requests: one page on for "next", one page back otherwise. */
  function NavOffset(lsr: int, pageSize: int, linkText: string): (r: int)
    ensures IsNextLink(linkText) ==> r - lsr == pageSize
    ensures !IsNextLink(linkText) ==> lsr - r == pageSize
  {
    lsr + (if IsNextLink(linkText) then pageSize else -pageSize)
  }

  lemma NextLinkText()
    ensures IsNextLink("Next Page")
  {
    var l := Lower("Next Page");
    assert l == "next page";
    assert OccursAt(l, "next", 0);
  }

  lemma PreviousLinkText()
    ensures !IsNextLink("Previous Page")
  {
    assert Lower("Previous Page") == "previous page";
    MissingFirstChar("previous page", "next");
  }

  /** A "next" followed by a "previous" comes back to the same offset. */
  lemma NextThenPrevious(lsr: int, pageSize: int)
    ensures NavOffset(NavOffset(lsr, pageSize, "Next Page"), pageSize, "Previous Page") == lsr
  {
    NextLinkText();
    PreviousLinkText();
  }

  /** The offset is not clamped: "previous" on the first page asks for a negative offset. */
  lemma PreviousFromFirstPageIsNegative(pageSize: int)
    requires pageSize > 0
    ensures NavOffset(0, pageSize, "Previous Page") < 0
  {
    PreviousLinkText();
  }

  /**
    The page a navigation link fetches: the user list page of the popup's domain, for
    the selected view, the same page size and the offset one page on or back.
   */
  function NavigateUrl(st: PopupState, viewId: string, linkText: string): (r: string)
    ensures StartsWith(r, st.domain + UsersPath)
    ensures '&' !in viewId ==>
      ParseUsersQuery(r[|st.domain + UsersPath|..]) == Some(ListQuery(viewId, st.pageSize, NavOffset(st.lsr, st.pageSize, linkText)))
  {
    var offset := NavOffset(st.lsr, st.pageSize, linkText);
    var r := UsersPageUrl(st.domain, viewId, st.pageSize, offset);
    if '&' in viewId then r
    else
      UsersQueryReadsBack(viewId, st.pageSize, offset);
      r
  }

  // ---------------------------------------------------------------------------
  // Columns

  /** A table as rows of cells, each cell recording only whether it carries `hideColumn`. */
  type Table = seq<seq<bool>>

  /** Cells after the fourth get `hideColumn`; the first four lose it. */
  function HideColumns(t: Table): (r: Table)
    ensures |r| == |t|
    ensures forall i :: 0 <= i < |t| ==> |r[i]| == |t[i]|
    ensures forall i, j :: 0 <= i < |t| && 0 <= j < |t[i]| ==> (r[i][j] <==> j > 3)
  {
    seq(|t|, i requires 0 <= i < |t| => seq(|t[i]|, j requires 0 <= j < |t[i]| => j > 3))
  }

  predicate AnyHidden(t: Table) {
    exists i, j :: 0 <= i < |t| && 0 <= j < |t[i]| && t[i][j]
  }

  function ShowAll(t: Table): (r: Table)
    ensures |r| == |t|
    ensures forall i :: 0 <= i < |t| ==> |r[i]| == |t[i]|
    ensures !AnyHidden(r)
  {
    seq(|t|, i requires 0 <= i < |t| => seq(|t[i]|, j requires 0 <= j < |t[i]| => false))
  }

  /**
    The "All Columns" / "Some Columns" button: shows every column when some are hidden,
    hides the columns after the fourth otherwise; the second result is its new label.
   */
  function ToggleColumns(t: Table): (r: (Table, string))
    ensures AnyHidden(t) ==> !AnyHidden(r.0) && r.1 == "Some Columns"
    ensures AnyHidden(t) ==> |r.0| == |t| && forall i :: 0 <= i < |t| ==> |r.0[i]| == |t[i]|
    ensures !AnyHidden(t) ==> r.0 == HideColumns(t) && r.1 == "All Columns"
  {
    if AnyHidden(t) then (ShowAll(t), "Some Columns") else (HideColumns(t), "All Columns")
  }

  /** Hiding is idempotent: hiding an already-hidden table changes nothing. */
  lemma HideColumnsIdempotent(t: Table)
    ensures HideColumns(HideColumns(t)) == HideColumns(t)
  {
  }

  /** Pressing the button twice after the table is shown returns the columns to the initial layout. */
  lemma ToggleTwiceRestores(t: Table)
    ensures ToggleColumns(ToggleColumns(HideColumns(t)).0).0 == HideColumns(t)
  {
    var h := HideColumns(t);
    if AnyHidden(h) {
      var s := ShowAll(h);
      assert HideColumns(s) == h;
    } else {
      HideColumnsIdempotent(t);
    }
  }

  // ---------------------------------------------------------------------------
  // Rows

  /** A data row of the user table: its text and whether processing gave it a Login cell. */
  datatype DataRow = DataRow(text: string, hasLoginCell: bool)

  /** `changeLoginUserOnly(checked)`: which rows are displayed. */
  function LoginOnlyVisibility(rows: seq<DataRow>, checked: bool): (shown: seq<bool>)
    ensures |shown| == |rows|
    ensures forall i :: 0 <= i < |rows| ==> (!shown[i] <==> checked && !rows[i].hasLoginCell)
  {
    seq(|rows|, i requires 0 <= i < |rows| => !(checked && !rows[i].hasLoginCell))
  }

  /**
    `applyTextFilter`: a row is displayed when its text contains the filter in any
    letter case; with an empty filter the Login-only rule is applied again afterwards.
   */
  function TextFilterVisibility(rows: seq<DataRow>, filter: string, loginOnly: bool): (shown: seq<bool>)
    ensures |shown| == |rows|
    ensures filter != "" ==> forall i :: 0 <= i < |rows| ==> (shown[i] <==> MatchesFilter(rows[i].text, filter))
    ensures filter == "" ==> shown == LoginOnlyVisibility(rows, loginOnly)
  {
    var byText := seq(|rows|, i requires 0 <= i < |rows| => Contains(Lower(rows[i].text), Lower(filter)));
    if |Lower(filter)| == 0 then LoginOnlyVisibility(rows, loginOnly) else byText
  }

  /**
    A non-empty filter overrides the Login-only rule: a matching row without a Login
    cell is displayed even with Login-only on.
   */
  lemma FilterOverridesLoginOnly(rows: seq<DataRow>, filter: string, i: int)
    requires filter != "" && 0 <= i < |rows| && MatchesFilter(rows[i].text, filter)
    ensures TextFilterVisibility(rows, filter, true)[i]
  {
  }

  /** Clearing the filter with Login-only on shows exactly the rows with a Login cell. */
  lemma EmptyFilterShowsLoginRows(rows: seq<DataRow>)
    ensures forall i :: 0 <= i < |rows| ==> (TextFilterVisibility(rows, "", true)[i] <==> rows[i].hasLoginCell)
  {
  }

  // ---------------------------------------------------------------------------
  // Links of the fetched table

  /**
    A link of the fetched table: its text, its `href` attribute, whether it sits in the
    action column, whether it has the `loginLink` class, whether it opens in a new tab,
    and which element of the table directly contains it (`parent`, numbered by the page).
   */
  datatype Anchor = Anchor(text: string, href: Option<string>, inActionColumn: bool, loginLinkClass: bool, newTab: bool, parent: nat)

  /** The links the Login rewrite handles: action-column links whose text includes `Login`. */
  predicate IsLoginLink(a: Anchor) {
    a.inActionColumn && Contains(a.text, "Login")
  }

  /**
    The Login rewrite of one link: its href becomes the frontdoor address for the
    rewritten Login-As address, or the text `null` when there is no session id. A Login
    link without an `href` makes the rewrite throw (`null.replace`), written `None`.
   */
  function RewriteLoginLink(a: Anchor, st: PopupState): (r: Option<Anchor>)
    ensures r.None? <==> IsLoginLink(a) && a.href.None?
    ensures r.Some? ==> r.value == a.(href := r.value.href)
    ensures r.Some? && !IsLoginLink(a) ==> r.value == a
    ensures r.Some? && IsLoginLink(a) ==>
      r.value.href == Some(BuildLoginUrl(LoginAsUrl(st.domain, a.href.value, st.tabUrl), st.sessionId, st.domain).GetOr("null"))
    ensures r.Some? && IsLoginLink(a) && !IsPresent(st.sessionId) ==> r.value.href == Some("null")
    ensures r.Some? && IsLoginLink(a) && IsPresent(st.sessionId) ==>
      && r.value.href.Some?
      && StartsWith(r.value.href.value, st.domain + FrontdoorPath + st.sessionId.value)
      && LastParamValue(r.value.href.value, "retURL") == Some(LoginAsUrl(st.domain, a.href.value, st.tabUrl))
  {
    if !IsLoginLink(a) then Some(a)
    else
      match a.href
      case None => None
      case Some(h) =>
        var url := BuildLoginUrl(LoginAsUrl(st.domain, h, st.tabUrl), st.sessionId, st.domain);
        Some(a.(href := Some(url.GetOr("null"))))
  }

  /** An href `processTable` makes absolute: one starting with `/` (and so not with `https://`). */
  predicate IsRelativeHref(h: string) {
    h != "" && !StartsWith(h, "https://") && StartsWith(h, "/")
  }

  /** The `https://` test in popup.js is redundant: the href must start with `/`. */
  lemma RelativeMeansLeadingSlash(h: string)
    ensures IsRelativeHref(h) <==> |h| > 0 && h[0] == '/'
  {
    if |h| > 0 && h[0] == '/' {
      assert h[..1] == "/";
    }
  }

  /** Links without the `loginLink` class: a relative href gets the domain in front, and the link opens in a new tab. */
  function Absolutise(a: Anchor, domain: string): (r: Anchor)
    ensures a.loginLinkClass ==> r == a
    ensures !a.loginLinkClass ==> r.newTab && r.text == a.text && r.inActionColumn == a.inActionColumn
    ensures !a.loginLinkClass && a.href.Some? && IsRelativeHref(a.href.value) ==> r.href == Some(domain + a.href.value)
    ensures a.href.None? || !IsRelativeHref(a.href.value) ==> r.href == a.href
  {
    if a.loginLinkClass then a
    else
      var h := if a.href.Some? && IsRelativeHref(a.href.value) then Some(domain + a.href.value) else a.href;
      a.(href := h, newTab := true)
  }

  /** With a domain that starts with `https://`, making links absolute twice is making them absolute once. */
  lemma AbsolutiseIdempotent(a: Anchor, domain: string)
    requires StartsWith(domain, "https://")
    ensures Absolutise(Absolutise(a, domain), domain) == Absolutise(a, domain)
  {
    var r := Absolutise(a, domain);
    if !a.loginLinkClass && a.href.Some? && IsRelativeHref(a.href.value) {
      assert (domain + a.href.value)[..8] == domain[..8];
    }
  }

  function RewriteAll(links: seq<Anchor>, st: PopupState): (r: Option<seq<Anchor>>)
    ensures r.None? <==> exists i :: 0 <= i < |links| && RewriteLoginLink(links[i], st).None?
    ensures r.Some? ==> |r.value| == |links|
    ensures r.Some? ==> forall i :: 0 <= i < |links| ==> Some(r.value[i]) == RewriteLoginLink(links[i], st)
  {
    var xs := seq(|links|, i requires 0 <= i < |links| => RewriteLoginLink(links[i], st));
    assert forall i :: 0 <= i < |links| ==> xs[i] == RewriteLoginLink(links[i], st);
    AllSome(xs)
  }

  /**
    Two Login links in one element: clearing that element for the first detaches the
    second, whose `parentElement` is then `null`, so `processTable` throws on it.
   */
  predicate LoginParentClash(links: seq<Anchor>) {
    exists i, j :: 0 <= i < j < |links| && IsLoginLink(links[i]) && IsLoginLink(links[j]) && links[i].parent == links[j].parent
  }

  /**
    A link that `processTable` drops from the table: another action-column link of the
    element holding a Login link, removed when that element is cleared (`innerHTML = ''`)
    and given back only its Login link. The second pass queries the table again and so
    never sees it.
   */
  predicate Detached(links: seq<Anchor>, j: int)
    requires 0 <= j < |links|
  {
    && links[j].inActionColumn
    && !IsLoginLink(links[j])
    && exists i :: 0 <= i < |links| && IsLoginLink(links[i]) && links[i].parent == links[j].parent
  }

  /** The positions, in order, of the links among the first `n` that stay in the table. */
  function KeptBelow(links: seq<Anchor>, n: nat): (ks: seq<nat>)
    requires n <= |links|
    ensures forall k :: 0 <= k < |ks| ==> ks[k] < n && !Detached(links, ks[k])
    ensures forall i :: 0 <= i < n && !Detached(links, i) ==> i in ks
    ensures forall k, l :: 0 <= k < l < |ks| ==> ks[k] < ks[l]
    decreases n
  {
    if n == 0 then []
    else
      var ks := KeptBelow(links, n - 1);
      if Detached(links, n - 1) then ks else ks + [n - 1]
  }

  /** The positions, in order, of the links that stay in the table. */
  function KeptLinks(links: seq<Anchor>): (ks: seq<nat>)
    ensures forall k :: 0 <= k < |ks| ==> ks[k] < |links| && !Detached(links, ks[k])
    ensures forall i :: 0 <= i < |links| ==> (i in ks <==> !Detached(links, i))
    ensures forall i :: 0 <= i < |links| && (IsLoginLink(links[i]) || !links[i].inActionColumn) ==> i in ks
    ensures forall k, l :: 0 <= k < l < |ks| ==> ks[k] < ks[l]
  {
    KeptBelow(links, |links|)
  }

  /**
    `processTable`'s link handling: first every Login link is rewritten and its element
    cleared down to it, then every link left in the table without the `loginLink` class
    is made absolute and opened in a new tab. `None` when `processTable` throws: a Login
    link without an href, or two Login links in one element.
   */
  function ProcessLinks(links: seq<Anchor>, st: PopupState): (r: Option<seq<Anchor>>)
    ensures r.None? <==>
      || (exists i :: 0 <= i < |links| && IsLoginLink(links[i]) && links[i].href.None?)
      || LoginParentClash(links)
    ensures r.Some? ==> |r.value| == |KeptLinks(links)|
    ensures r.Some? ==> forall k :: 0 <= k < |r.value| ==>
      var i := KeptLinks(links)[k];
      && r.value[k].text == links[i].text
      && (!links[i].loginLinkClass ==> r.value[k].newTab)
      && (!IsLoginLink(links[i]) ==> r.value[k] == Absolutise(links[i], st.domain))
      && (IsLoginLink(links[i]) ==> r.value[k] == Absolutise(RewriteLoginLink(links[i], st).value, st.domain))
  {
    if LoginParentClash(links) then None
    else
      match RewriteAll(links, st)
      case None => None
      case Some(rewritten) =>
        var ks := KeptLinks(links);
        Some(seq(|ks|, k requires 0 <= k < |ks| => Absolutise(rewritten[ks[k]], st.domain)))
  }

  /**
    An action-column link beside a Login link in the same element is gone from the
    processed table: of the two, only the Login link is left.
   */
  lemma SiblingOfLoginLinkDropped(links: seq<Anchor>, st: PopupState)
    requires |links| == 2 && links[0].inActionColumn && !IsLoginLink(links[0])
    requires IsLoginLink(links[1]) && links[1].href.Some? && links[1].parent == links[0].parent
    ensures KeptLinks(links) == [1]
    ensures ProcessLinks(links, st).Some? && |ProcessLinks(links, st).value| == 1
  {
    assert Detached(links, 0);
    assert !Detached(links, 1);
    assert KeptBelow(links, 1) == [];
    assert !LoginParentClash(links);
    assert !exists i :: 0 <= i < |links| && IsLoginLink(links[i]) && links[i].href.None?;
  }

  /** An href that starts with an `https://` domain is not relative. */
  lemma UnderHttpsDomainIsAbsolute(h: string, domain: string)
    requires StartsWith(domain, "https://") && StartsWith(h, domain)
    ensures !IsRelativeHref(h)
  {
    assert h[..8] == domain[..8];
  }

  lemma FrontdoorHrefIsAbsolute(a: Anchor, st: PopupState)
    requires StartsWith(st.domain, "https://") && IsPresent(st.sessionId)
    requires IsLoginLink(a) && a.href.Some?
    ensures Absolutise(RewriteLoginLink(a, st).value, st.domain).href == RewriteLoginLink(a, st).value.href
  {
    var r := RewriteLoginLink(a, st).value;
    var h := r.href.value;
    StartsWithShorter(h, st.domain + FrontdoorPath, st.sessionId.value);
    StartsWithShorter(h, st.domain, FrontdoorPath);
    UnderHttpsDomainIsAbsolute(h, st.domain);
  }

  /**
    A rewritten Login link keeps its frontdoor href through the second pass: the
    frontdoor address starts with the `https://` domain, so it is not relative.
   */
  lemma LoginLinkKeepsFrontdoorHref(links: seq<Anchor>, st: PopupState, k: int)
    requires StartsWith(st.domain, "https://") && IsPresent(st.sessionId)
    requires ProcessLinks(links, st).Some?
    requires 0 <= k < |KeptLinks(links)| && IsLoginLink(links[KeptLinks(links)[k]])
    ensures
      var i := KeptLinks(links)[k];
      var h := ProcessLinks(links, st).value[k].href;
      && h.Some?
      && StartsWith(h.value, st.domain + FrontdoorPath)
      && LastParamValue(h.value, "retURL") == Some(LoginAsUrl(st.domain, links[i].href.value, st.tabUrl))
  {
    var i := KeptLinks(links)[k];
    var a := RewriteLoginLink(links[i], st).value;
    FrontdoorHrefIsAbsolute(links[i], st);
    StartsWithShorter(a.href.value, st.domain + FrontdoorPath, st.sessionId.value);
    assert ProcessLinks(links, st).value[k] == Absolutise(a, st.domain);
  }
}

=== FILE: wrappers.dfy ===
/** Optional values: the model's stand-in for JavaScript's `null` results. */
module Wrappers {

  datatype Option<+T> = None | Some(value: T) {

    /** Returns the wrapped value, or `default` when there is none. */
    function GetOr(default: T): T {
      match this
      case Some(v) => v
      case None => default
    }
  }

  /** All the wrapped values when every entry has one, in order; `None` as soon as one is missing. */
  function AllSome<T>(xs: seq<Option<T>>): (r: Option<seq<T>>)
    ensures r.None? <==> exists i :: 0 <= i < |xs| && xs[i].None?
    ensures r.Some? ==> |r.value| == |xs|
    ensures r.Some? ==> forall i :: 0 <= i < |xs| ==> xs[i] == Some(r.value[i])
  {
    if |xs| == 0 then Some([])
    else
      match (xs[0], AllSome(xs[1..]))
      case (Some(a), Some(rest)) =>
        assert forall i :: 1 <= i < |xs| ==> xs[i] == xs[1..][i - 1];
        Some([a] + rest)
      case (None, _) => None
      case (_, None) =>
        var i :| 0 <= i < |xs[1..]| && xs[1..][i].None?;
        assert xs[i + 1] == xs[1..][i];
        None
  }
}
